=== FILE: README.md ===
# Noche de Caos — the Impostor round, in Dafny

This project models the "Impostor" party game of the Noche de Caos app. It also models the app's settings store.

In the game, a group shares one phone:

- A roster of players is edited on a setup screen.
- A round starts by shuffling the roster and drawing one impostor and a secret word.
- Each player in turn presses and holds to see their role. The crew sees the word and the impostor does not.
- After a debate with an optional countdown, every player votes in turn for another player or for "skip".
- The results screen tallies the ballots and announces a tie, nobody ejected, the impostor caught, or an innocent ejected.

The settings store covers:

- a state record with its defaults;
- four setters, one of which clamps the music volume;
- the merge of the persisted copy over the current state;
- the translation lookup `t`, which falls back to Spanish and then to the key itself.

Modules:

- `Basics`: `Option`, and `Distinct` with its cons/snoc lemmas.
- `Text`: JavaScript `trim`, the `/\s+/g` collapse and `slice(0, 18)`, which make up `sanitizeName`.
- `Shuffle`: the Fisher–Yates `shuffle`. The random draws are a parameter.
- `Words`: the 22-entry word bank, `pickRandomWord`, and the manual word with its fallbacks.
- `Votes`: ballots, the tally `Map` in insertion order, the `forEach` maximum scan and the heading rule.
- `Roster`: players, the add and remove edits, and roster validity (distinct ids, none equal to `"skip"`).
- `Round`: the screen's state record and its handlers: `startNewRound`, `addPlayer`, `nextReveal`, `vote`, the ballot list, the reveal view, the results screen and the countdown.
- `Machine`: every button and the confirmed back press as an `Event`. `Step` is the phase machine, `Edge` is a reference list of screen transitions, and `Inv` is an invariant preserved by every step.
- `Settings`: `SettingsContext`'s pure parts.

The whole phase machine is one pure function, `Machine.Step(state, event)`. Randomness and fresh ids are supplied by the caller:

- The draws of `Math.random` travel in a `Choices` value: one swap index per shuffle position, the impostor's position and the word index.
- The id that `uid()` would produce travels with the `AddName` event. `FreshId` assumes the id is new and is not `"skip"`. The second always holds, since every `uid()` contains `_`. The first is only overwhelmingly likely: `uid()` is the current millisecond plus up to seven random base-36 characters.

Behaviour of the code worth knowing:

- **Tie rule.** A strictly greater count resets the tie flag. So the scan reports a tie exactly when the overall maximum is shared by two targets (`Votes.ScanFindsMax`, `Votes.TieMeansTwoTargets`, `Votes.JudgeExamples`).
- **No ballots.** Voting cannot end with no ballots. If it did, the empty tally would leave `topId` at `null` and the screen would read "INOCENTE EXPULSADO" (`Votes.NoVotesIsInnocentEjected`).
- **Manual word category.** A manual word's category is always the fallback "General", because no input sets `customCategory`.
- **Unused `keep`.** The `keep` argument of `startNewRound` changes nothing.
- **Unused `sanitizeName`.** `sanitizeName` is defined but never called. `addPlayer` only trims, and the "+" button is enabled on the untrimmed length (`newName.length < 2`).

## Model

| member | source | states |
|---|---|---|
| Text.Trim | src/screens/ImpostorGame.tsx:276-277 | the trimmed name neither starts nor ends with a whitespace character |
| Text.TrimSpec | src/screens/ImpostorGame.tsx:276-277 | trimming removes only whitespace: the input is the result between a whitespace run before it and one after it |
| Text.TrimKeepsVisible | src/screens/ImpostorGame.tsx:276-277 | trimming keeps every non-whitespace character, in order |
| Text.Collapse | src/screens/ImpostorGame.tsx:89 | after `replace(/\s+/g, " ")` no two whitespace characters are adjacent, the only whitespace left is the plain space, and the first character is kept or becomes a space |
| Text.CollapseKeepsVisible | src/screens/ImpostorGame.tsx:89 | the collapse keeps every non-whitespace character, in order |
| Text.CollapseSpaces | src/screens/ImpostorGame.tsx:89 | a non-empty run made only of whitespace becomes exactly one plain space |
| Text.CollapseAppend | src/screens/ImpostorGame.tsx:89 | the collapse works run by run: for a cut that does not fall inside a whitespace run, collapsing the two halves and joining them gives the collapse of the whole |
| Text.Take | src/screens/ImpostorGame.tsx:89 | `slice(0, n)` is a prefix of `s`: all of `s` when it has at most `n` characters, and exactly `n` characters otherwise |
| Text.TakeKeepsVisiblePrefix | src/screens/ImpostorGame.tsx:89 | the cut keeps a prefix of the non-whitespace characters |
| Text.SanitizeName | src/screens/ImpostorGame.tsx:88-90 | a sanitised name has at most 18 characters, no leading whitespace, no adjacent whitespace and only plain spaces; it is a prefix of the trimmed, collapsed input, and exactly 18 characters long when that input has 18 or more |
| Text.SanitizeKeepsVisible | src/screens/ImpostorGame.tsx:88-90 | the visible characters of a sanitised name are a prefix of the input's, and all of them when nothing is cut |
| Text.SanitizeNotIdempotent | src/screens/ImpostorGame.tsx:88-90 | when the 18-character cut ends on a space, sanitising again shortens the name, so the function is not idempotent |
| Shuffle.Swap | src/screens/ImpostorGame.tsx:81 | the destructuring swap exchanges positions `i` and `j` and leaves every other position alone |
| Shuffle.SwapPermutes | src/screens/ImpostorGame.tsx:81 | a swap keeps the multiset of elements and keeps distinct elements distinct |
| Shuffle.ShuffleDown | src/screens/ImpostorGame.tsx:79-82 | the loop keeps the length and never touches positions above the current index |
| Shuffle.ShuffleDownPermutes | src/screens/ImpostorGame.tsx:79-82 | the loop is a permutation: the multiset of elements is unchanged |
| Shuffle.ShuffleDownDistinct | src/screens/ImpostorGame.tsx:79-82 | the loop keeps distinct elements distinct |
| Shuffle.Shuffle | src/screens/ImpostorGame.tsx:77-84 | the shuffled copy has the same length, multiset and members as the input, and stays duplicate-free |
| Shuffle.ShuffleDownIdentity | src/screens/ImpostorGame.tsx:79-82 | draws that always pick the current position leave the list unchanged |
| Shuffle.LastDrawPicksLast | src/screens/ImpostorGame.tsx:79-82 | the first draw decides the last position, so any element can end up last |
| Words.PickWord | src/screens/ImpostorGame.tsx:85-87 | a random pick is an entry of the word bank |
| Words.PickWordCoversBank | src/screens/ImpostorGame.tsx:48-71 | the bank has 22 entries and each of them is drawn by some index |
| Words.OrElse | src/screens/ImpostorGame.tsx:263 | the logical-or fallback on strings falls back exactly when the string is empty |
| Words.ChooseSecret | src/screens/ImpostorGame.tsx:262-264 | in random mode the secret is a bank entry; in manual mode it is the typed word and category with "Secreto"/"General" for blank fields |
| Words.CustomSecretNeverEmpty | src/screens/ImpostorGame.tsx:262-264 | whatever the mode and input, the secret's word and category are non-empty |
| Votes.Bump | src/screens/ImpostorGame.tsx:786 | `Map.set` on an existing key keeps its place and adds one to that entry only; a new key goes last with count 1; keys stay distinct |
| Votes.Tally | src/screens/ImpostorGame.tsx:784-787 | the tally map never holds a key twice |
| Votes.FirstOccurrences | src/screens/ImpostorGame.tsx:784-787 | the reference order of a tally: exactly the voted targets, each once |
| Votes.FirstOccurrencesOrdered | src/screens/ImpostorGame.tsx:784-787 | the reference order lists the targets in the order of their first ballots |
| Basics.PositionIsFirst | src/screens/ImpostorGame.tsx:784-787 | the position used to compare targets is the first occurrence: no earlier ballot names the target |
| Votes.TallyOrder | src/screens/ImpostorGame.tsx:784-787 | the map iterates over the voted targets in the order of their first ballot |
| Votes.TallyCounts | src/screens/ImpostorGame.tsx:784-787 | each entry counts exactly the ballots naming its target, and a target has an entry if and only if it received a ballot |
| Votes.TallyCountAt | src/screens/ImpostorGame.tsx:784-787 | every entry's count equals its target's ballot count and is positive |
| Votes.TallyHas | src/screens/ImpostorGame.tsx:784-787 | a target that received a ballot has an entry |
| Votes.TallyNonEmpty | src/screens/ImpostorGame.tsx:784-787 | a non-empty ballot list gives a non-empty tally |
| Votes.CountPositive | src/screens/ImpostorGame.tsx:785-786 | a ballot gives its target a positive count |
| Votes.NewLeader | src/screens/ImpostorGame.tsx:792-795 | one step of the scan (`Votes.ScanStep`): a strictly greater count becomes the first and only holder of the maximum |
| Votes.EqualsLeader | src/screens/ImpostorGame.tsx:796 | in one step of the scan (`Votes.ScanStep`), a count equal to the maximum leaves the leader in place and makes the maximum shared |
| Votes.BelowLeader | src/screens/ImpostorGame.tsx:791-797 | in one step of the scan (`Votes.ScanStep`), a smaller count changes neither the leader nor whether the maximum is shared |
| Votes.ScanFindsMax | src/screens/ImpostorGame.tsx:788-797 | the scan over the whole tally (`Votes.Scan`) ends with the greatest count, the first target holding it, and `tie` set exactly when two entries hold it |
| Votes.LeaderIndex | src/screens/ImpostorGame.tsx:788-797 | the leader is the first entry, in iteration order, holding the maximum |
| Votes.ScanIsLeader | src/screens/ImpostorGame.tsx:788-797 | the scan's `topId` is the leader, and its tie flag says whether the maximum is shared |
| Votes.LeaderCount | src/screens/ImpostorGame.tsx:788-797 | the leader received the greatest number of ballots |
| Votes.MaxIsGreatestCount | src/screens/ImpostorGame.tsx:784-797 | the maximum is positive and no target received more ballots |
| Votes.TwoTargetsShareMax | src/screens/ImpostorGame.tsx:788-797 | two different targets with the greatest number of ballots make the maximum shared |
| Votes.TieMeansTwoTargets | src/screens/ImpostorGame.tsx:788-797 | `tie` holds if and only if two different targets both received the greatest number of ballots |
| Votes.UniqueWinner | src/screens/ImpostorGame.tsx:788-799 | without a tie, `topId` is the leader and every other target received strictly fewer ballots |
| Votes.DecideSpec | src/screens/ImpostorGame.tsx:784-823 | the heading the results screen computes from the ballots and the impostor id (`Votes.Decide`: tally, scan, classification), stated without the tally or the scan: tie if and only if the maximum is shared; otherwise skip, impostor or anyone else as leader gives nobody ejected, caught or innocent ejected; `caught` matches the caught heading |
| Votes.JudgeByLeader | src/screens/ImpostorGame.tsx:799-823 | the classification (`Votes.Judge`): the heading in terms of the scan's leader and tie flag, each case as an if-and-only-if |
| Votes.NoVotesIsInnocentEjected | src/screens/ImpostorGame.tsx:784-823 | with no ballots the screen reports an innocent ejected, not caught |
| Votes.ScanSnoc | src/screens/ImpostorGame.tsx:791-797 | scanning one more entry is one more iteration of the `forEach` body |
| Votes.JudgeExamples | src/screens/ImpostorGame.tsx:788-823 | worked cases: a shared top is a tie, a skip majority ejects nobody, an innocent leader is ejected, and an early tie overtaken by a greater count is no tie |
| Roster.AddPlayer | src/screens/ImpostorGame.tsx:275-279 | a name shorter than 2 after trimming changes nothing; otherwise exactly one player, with the trimmed name and the new id, is appended |
| Roster.AddPlayerKeepsRosterValid | src/screens/ImpostorGame.tsx:275-279 | with a fresh id the roster keeps distinct ids and no "skip"; the new name has at least 2 characters and no outer whitespace |
| Roster.RemovePlayer | src/screens/ImpostorGame.tsx:406-407 | the filter keeps exactly the players with another id |
| Roster.RemoveAppend | src/screens/ImpostorGame.tsx:406-407 | the filter distributes over concatenation, so survivors keep their order |
| Roster.RemoveAbsent | src/screens/ImpostorGame.tsx:406-407 | removing an id nobody has changes nothing |
| Roster.RemoveFromValidRoster | src/screens/ImpostorGame.tsx:406-407 | in a valid roster, removing a player's id removes exactly that player, leaving the rest in order and valid |
| Round.Initial | src/screens/ImpostorGame.tsx:185-206 | the screen mounts on the title screen with "Jugador 1" to "Jugador 3" under the given ids, empty name and word boxes, random word mode, no round players, cursors at 0, no ballots and no secret |
| Round.StartNewRound | src/screens/ImpostorGame.tsx:252-273 | below three players nothing changes; otherwise the round players are a permutation of the roster, the impostor is one of them, the secret follows the word mode, cursors and ballots reset, and the roster and configuration stay |
| Round.ShuffleDownIds | src/screens/ImpostorGame.tsx:260 | shuffling players and shuffling their ids with the same draws keeps ids matched position by position |
| Round.ShuffleKeepsRosterValid | src/screens/ImpostorGame.tsx:260 | the shuffled copy of a valid roster is valid |
| Round.StartKeepsRosterValid | src/screens/ImpostorGame.tsx:252-273 | a started round has valid round players and exactly one impostor |
| Round.OneImpostorInValidRoster | src/screens/ImpostorGame.tsx:261 | an impostor id drawn from a valid list is held by exactly one round player |
| Round.AddPlayerToState | src/screens/ImpostorGame.tsx:275-279 | a successful add clears the name box and changes nothing else; a refused one changes nothing |
| Round.NextReveal | src/screens/ImpostorGame.tsx:281-288 | the reveal cursor advances to the next player, or the debate opens after the last; the cursor stays in range and nothing else changes |
| Round.RevealWalk | src/screens/ImpostorGame.tsx:281-288 | from the first player, every round player gets one reveal in order, then the debate opens with the cursor on the last player |
| Round.OpenVoting | src/screens/ImpostorGame.tsx:697-699 | "VOTAR AHORA" resets the vote cursor and opens voting, changing nothing else |
| Round.RemoveVoter | src/screens/ImpostorGame.tsx:293 | the filter keeps exactly the ballots of other voters |
| Round.RemoveVoterAppend | src/screens/ImpostorGame.tsx:293 | the filter distributes over concatenation, so the kept ballots stay in order |
| Round.RemoveVoterAbsent | src/screens/ImpostorGame.tsx:293 | filtering out someone who has not voted changes nothing |
| Round.RemoveVoterRemoves | src/screens/ImpostorGame.tsx:293 | after the filter the voter has no ballot left |
| Round.RemoveVoterKeepsOut | src/screens/ImpostorGame.tsx:293 | the filter adds no voter |
| Round.RemoveVoterKeepsDistinct | src/screens/ImpostorGame.tsx:293 | the filter keeps one-ballot-per-voter |
| Round.CastVote | src/screens/ImpostorGame.tsx:290-303 | the voter's earlier ballot is dropped and the new one goes last, so voters stay distinct; the cursor moves to the next voter or the results open after the last |
| Round.VoteInTurn | src/screens/ImpostorGame.tsx:290-303 | when the earlier players voted in turn, a vote appends the current voter's ballot and drops nothing |
| Round.VoteWalk | src/screens/ImpostorGame.tsx:290-303 | a run of votes in turn appends one ballot per voter, in round order |
| Round.VotersOfTurns | src/screens/ImpostorGame.tsx:290-303 | ballots in turn after the first `j` voters' are the ballots of the first `j + m` round players |
| Round.VoteCursor | src/screens/ImpostorGame.tsx:297-302 | during a run of votes the cursor walks the round players and the results open exactly after the last one |
| Round.FullVote | src/screens/ImpostorGame.tsx:290-303 | a voting round from the first voter reaches the results with exactly one ballot per round player, in turn |
| Round.BallotOptions | src/screens/ImpostorGame.tsx:743-748 | the ballot lists the round players other than the voter, then the skip entry |
| Round.BallotOffersOthers | src/screens/ImpostorGame.tsx:743-748 | with valid round players the ballot is the others in round order plus skip, one row per round player, never the voter |
| Round.BackConfirmed | src/screens/ImpostorGame.tsx:217-235 | a confirmed back press returns to the title screen and keeps every other field |
| Round.CurrentPlayer | src/screens/ImpostorGame.tsx:306 | the player at the reveal cursor, a round player, present exactly when the cursor is in range |
| Round.View | src/screens/ImpostorGame.tsx:504-595 | nothing shows unless the area is held; the crew card, with the secret, shows exactly when the current player is not the impostor; a holding impostor sees the impostor card |
| Machine.RevealViews | src/screens/ImpostorGame.tsx:504-595 | in a reachable reveal, the held area shows the impostor card to the impostor and the secret word to everyone else, and of all the cursor positions exactly one gets the impostor card |
| Round.ImpostorNeverSeesWord | src/screens/ImpostorGame.tsx:306-307 | during a round the word shows exactly to a holding non-impostor, never to the impostor |
| Round.FindName | src/screens/ImpostorGame.tsx:801-803 | `find` fails exactly when no player has the id; otherwise it returns the name of a player with that id |
| Round.FindNameInValidRoster | src/screens/ImpostorGame.tsx:801-803 | in a valid roster `find` returns the name of the one player with the id |
| Round.ShowResults | src/screens/ImpostorGame.tsx:781-850 | the results screen shows the decided outcome; the impostor's name, which is missing exactly when no round player has the impostor id, belongs to a round player with that id, and in a valid roster is that player's name; the secret's word, exactly when there is a secret |
| Round.RemainingSeconds | src/screens/ImpostorGame.tsx:241 | the countdown is 0 once the end is reached, and otherwise the whole seconds left rounded up |
| Round.TimerEnd | src/screens/ImpostorGame.tsx:678-689 | the "60s" and "120s" buttons set the end 61 and 121 seconds ahead |
| Round.TimerCountdown | src/screens/ImpostorGame.tsx:238-249 | a tick of the countdown interval, `elapsed` ms after a timer button, writes 61 (or 121) less the whole seconds elapsed, and 0 from the end on; the first tick, half a second after the press, writes 61 (or 121) |
| Machine.Step | src/screens/ImpostorGame.tsx:319-878 | every event either keeps the phase or follows an edge of the screen graph, and entering a round from the title or setup screen is a full round start |
| Machine.RosterEditedOnlyInSetup | src/screens/ImpostorGame.tsx:350-456 | only the setup screen changes the roster, and it stays on the setup screen |
| Machine.RoundKeepsConfig | src/screens/ImpostorGame.tsx:458-878 | no event inside a round changes the roster or the word mode, not even leaving for the title screen or starting a new round; every event but "Jugar Otra Vez" keeps the round players, the impostor and the secret, which only `startNewRound` (lines 252-273) writes |
| Machine.InitialInv | src/screens/ImpostorGame.tsx:185-206 | the mount state satisfies the invariant when the three ids are distinct and not "skip" |
| Machine.RemoveKeepsRosterValid | src/screens/ImpostorGame.tsx:406-407 | removing any id keeps a valid roster valid |
| Machine.StartRoundInv | src/screens/ImpostorGame.tsx:252-273 | a round started from a valid roster of three or more satisfies the invariant |
| Machine.StartKeepsInv | src/screens/ImpostorGame.tsx:252-273 | a round start keeps the invariant, including the refusal below three players |
| Machine.RosterSizeInRound | src/screens/ImpostorGame.tsx:252-260 | during a round the roster has as many players as the round, at least three |
| Machine.PlayAgainStarts | src/screens/ImpostorGame.tsx:869-872 | "Jugar Otra Vez" always starts a new round |
| Machine.OffScreenIgnored | src/screens/ImpostorGame.tsx:320-872 | a button does nothing outside the screen that shows it |
| Machine.MenuButtonsTakeEdges | src/screens/ImpostorGame.tsx:336-872 | "Configurar", "JUEGO RÁPIDO", "Volver", "Jugar", "Inicio" and "Jugar Otra Vez" move to their screens; a round start with three or more players starts the round, and with fewer changes nothing |
| Machine.SetupButtonsEdit | src/screens/ImpostorGame.tsx:368-427 | on the setup screen the name box, "+", "Eliminar", the word mode switch and the word box each make their edit and change nothing else |
| Machine.RoundButtonsTakeEdges | src/screens/ImpostorGame.tsx:459-723 | "SOY ...", "VOTAR AHORA" and "ABRIR VOTACIÓN" take their edges; "YA LO VI" is exactly `nextReveal`, advancing the cursor or opening the debate; a confirmed back press leaves any other screen for the title screen |
| Machine.BallotRowTakesEdge | src/screens/ImpostorGame.tsx:290-303 | a ballot row is exactly `vote`: it replaces the voter's earlier ballot with the new one, last, advances the cursor or opens the results, and keeps the round players, the impostor and the secret |
| Machine.BallotTarget | src/screens/ImpostorGame.tsx:743-752 | a ballot row is skip or a round player other than the voter |
| Machine.CastKeepsRoundInv | src/screens/ImpostorGame.tsx:290-303 | a vote keeps every ballot naming skip or another round player |
| Machine.CastKeepsPhaseInv | src/screens/ImpostorGame.tsx:290-303 | a vote keeps the ballots those of the earlier voters in turn, and the results open with one ballot each |
| Machine.CastKeepsInv | src/screens/ImpostorGame.tsx:290-303 | a vote keeps the invariant |
| Machine.RevealKeepsInv | src/screens/ImpostorGame.tsx:281-288 | `nextReveal` keeps the invariant |
| Machine.StartEventsKeepInv | src/screens/ImpostorGame.tsx:334-871 | the quick-play, play and play-again buttons keep the invariant |
| Machine.SetupEventsKeepInv | src/screens/ImpostorGame.tsx:366-441 | the setup screen's edits keep the invariant, given a fresh id |
| Machine.StepKeepsInv | src/screens/ImpostorGame.tsx:319-878 | every event keeps the invariant: valid roster, and in a round valid round players, one impostor, a secret, cursors in range, ballots in turn and naming skip or another player |
| Machine.OneImpostorPerRound | src/screens/ImpostorGame.tsx:259-261 | in every phase of a round exactly one round player is the impostor, and the round players are the roster reordered |
| Machine.ResultsFacts | src/screens/ImpostorGame.tsx:781-845 | at the results each round player has voted exactly once, nobody for themself, the tally is non-empty and the impostor's name is shown |
| Settings.DefaultsWellFormed | src/context/SettingsContext.tsx:40-45 | the defaults are Spanish, music on at 0.6, and well formed |
| Settings.SetLanguage | src/context/SettingsContext.tsx:156 | sets the language, keeps the other fields and keeps the state well formed |
| Settings.SetMusicEnabled | src/context/SettingsContext.tsx:157-158 | sets the music flag and keeps the other fields |
| Settings.Clamp | src/context/SettingsContext.tsx:162 | the result lies in 0..1, equals an in-range input, and is the nearer bound otherwise |
| Settings.ClampIdempotentMonotone | src/context/SettingsContext.tsx:162 | clamping twice is clamping once, and clamping keeps the order of volumes |
| Settings.SetMusicVolume | src/context/SettingsContext.tsx:159-163 | sets the clamped volume, which is in 0..1, and keeps the other fields |
| Settings.SetBackgroundId | src/context/SettingsContext.tsx:164-165 | sets the background and keeps the other fields |
| Settings.SettersCommute | src/context/SettingsContext.tsx:156-165 | setters of different fields commute, and a second write to a field replaces the first |
| Settings.Merge | src/context/SettingsContext.tsx:61-62 | each present field of the loaded object replaces the current one, and each absent field keeps it |
| Settings.Saved | src/context/SettingsContext.tsx:72 | the persisted object holds every field |
| Settings.MergeLaws | src/context/SettingsContext.tsx:59-73 | loading what was saved restores it over any state, an empty object changes nothing, and merging twice is merging once |
| Settings.MergeChecksNothing | src/context/SettingsContext.tsx:61-62 | a well-formed object keeps the state well formed, but a stored volume of 2 or an unknown language is loaded unchecked |
| Settings.T | src/context/SettingsContext.tsx:166 | the lookup returns the key itself, the current language's entry or the Spanish entry, and the current language's entry whenever it exists |
| Settings.TFallbacks | src/context/SettingsContext.tsx:166 | an unknown language reads as Spanish, a key missing from both tables reads as itself, and a key only Spanish has falls back to Spanish |

## Left out

- Timer effect: the 500 ms polling interval, `setDiscussionRunning` and the end-of-debate vibration are clock-driven and not modelled. Only the displayed value (`RemainingSeconds`) and the buttons' end instants are.
- Timer buttons: the "60s"/"120s" presses do not appear as `Step` events, because they touch only the countdown, which is outside the state record.
- Alerts: the back confirmation is modelled by its "Salir" outcome (`Back`). "Cancelar" is no event. The "Mínimo 3 jugadores" alert is the no-change branch of `StartNewRound`.
- Back on the title screen: the game returns `false`, so the app's stack navigator (`App.tsx:25`) takes the press and pops the Impostor screen that `HomeScreen.tsx:59` pushed. That unmounts the game and discards the roster, and entering again starts from `Initial`. Navigation is not part of this model, so `Step` leaves the state unchanged for this press.
- Countdown before the first tick: a timer button sets only `discussionRunning` and `discussionEndsAt`, and `timeLeft` is written only by the 500 ms tick. For the first half second after a press the display shows the earlier `timeLeft` (0 on first use, or the last value of a previous countdown). `TimerCountdown` describes the ticks only.
- Press and hold: `isHoldingSecret` is the `holding` parameter of `Round.View`, not a state field. Vibration feedback is left out.
- `uid()` and `Math.random`: these are parameters (`AddName`'s id, `Choices`). The uniformity of the draws and the id format are not modelled.
- Id collisions: `FreshId` and `Machine.InitialInv` assume distinct ids, which `uid()` makes overwhelmingly likely but does not guarantee (the three ids at mount are made in the same millisecond). If two players shared an id, "Eliminar" would remove both and a second vote by either would replace the other's ballot. The model does not cover that case.
- Rendering: layout, styles, labels other than the ballot's skip entry, emoji, `FlatList` and keyboard handling are left out.
- Name input: `onChangeText` is modelled as `EditName`/`EditWord` carrying the whole new text.
- String lengths: the source counts UTF-16 code units (`newName.length`, `slice(0, 18)`), while the model counts Unicode scalar values. The two differ for characters outside the Basic Multilingual Plane.
- Settings I/O: `AsyncStorage` reads and writes, the `raw` emptiness test, `JSON.parse` failures (which keep the defaults) and JSON values of the wrong type are I/O or dynamic typing. `Merge` takes the already parsed object and `Saved` is the object before `JSON.stringify`.
- Music volume: `musicVolume` is a `real`. NaN and the floating-point rounding of the volume are not modelled.
- Settings.SetLanguage: requires a known language, as the TypeScript type `Lang` does.
- Settings.SetBackgroundId: requires a known background, as the TypeScript type `BackgroundId` does.
- Audio: the audio controller and audio-mode set-up call expo-av and are left out.
- String table: the concrete content of `STRINGS` in src/i18n/strings.ts is not modelled. `Settings.T` takes the table as a parameter and only needs a Spanish table.
- Other screens: the home, premium and ad screens, the premium context and app navigation are outside the game and settings logic.

=== FILE: basics.dfy ===
/** Small shared definitions: JavaScript's `null`-or-value, and sequences
    without repeated elements. */
module Basics {

  /** A value that may be absent (`null` or `undefined` in TypeScript). */
  datatype Option<T> = None | Some(value: T)

  /** No two positions of `s` hold equal elements. */
  predicate Distinct<T(==)>(s: seq<T>) {
    forall i, j :: 0 <= i < j < |s| ==> s[i] != s[j]
  }

  /** Where `x` first occurs in `s`. */
  function Position<T(==)>(s: seq<T>, x: T): (k: nat)
    requires x in s
    ensures k < |s| && s[k] == x
  {
    if s[0] == x then 0 else 1 + Position(s[1..], x)
  }

  /** No earlier position holds `x`: `Position` is the first occurrence. */
  lemma {:induction false} PositionIsFirst<T>(s: seq<T>, x: T)
    requires x in s
    ensures forall i :: 0 <= i < Position(s, x) ==> s[i] != x
  {
    if s[0] != x {
      PositionIsFirst(s[1..], x);
      assert forall i :: 1 <= i < |s| ==> s[i] == s[1..][i - 1];
    }
  }

  /** Appending to `s` does not move the first occurrence of an element
      already in `s`; a new element first occurs at the end. */
  lemma {:induction false} PositionSnoc<T>(s: seq<T>, x: T, y: T)
    requires y in s + [x]
    ensures y in s ==> Position(s + [x], y) == Position(s, y)
    ensures y !in s ==> Position(s + [x], y) == |s|
  {
    if s != [] && s[0] != y {
      assert (s + [x])[1..] == s[1..] + [x];
      PositionSnoc(s[1..], x, y);
    }
  }

  /** An element in front of a sequence keeps it repetition-free exactly
      when the element is new and the sequence was repetition-free. */
  lemma {:induction false} DistinctCons<T>(x: T, s: seq<T>)
    ensures Distinct([x] + s) <==> x !in s && Distinct(s)
  {
    var r := [x] + s;
    assert forall i :: 0 <= i < |s| ==> r[i + 1] == s[i];
    if x !in s && Distinct(s) {
      forall i, j | 0 <= i < j < |r|
        ensures r[i] != r[j]
      {
        if i > 0 {
          assert r[i] == s[i - 1] && r[j] == s[j - 1];
        } else {
          assert r[j] == s[j - 1];
        }
      }
    }
    if Distinct(r) {
      forall i | 0 <= i < |s|
        ensures s[i] != x
      {
        assert r[0] != r[i + 1];
      }
    }
  }

  /** The same for an element appended at the end. */
  lemma {:induction false} DistinctSnoc<T>(s: seq<T>, x: T)
    ensures Distinct(s + [x]) <==> x !in s && Distinct(s)
  {
    var r := s + [x];
    assert forall i :: 0 <= i < |s| ==> r[i] == s[i];
    if x !in s && Distinct(s) {
      forall i, j | 0 <= i < j < |r|
        ensures r[i] != r[j]
      {
        if j < |s| {
          assert r[i] == s[i] && r[j] == s[j];
        } else {
          assert r[i] == s[i];
        }
      }
    }
    if Distinct(r) {
      forall i | 0 <= i < |s|
        ensures s[i] != x
      {
        assert r[i] != r[|s|];
      }
    }
  }
}

=== FILE: machine.dfy ===
/** The Impostor screen as a state machine: every button and back press is
    an event, `Step` applies it in the phase whose screen offers it, and
    `Inv` is what holds of every state the machine reaches. */
module Machine {
  import opened Basics
  import opened Roster
  import opened Votes
  import opened Round

  /** A user action. The draws of `Math.random` and the id of `uid()` travel
      with the events that use them. */
  datatype Event =
    | QuickPlay(c: Choices)    // home: "JUEGO RÁPIDO"
    | OpenSetup                // home: "Configurar Jugadores"
    | EditName(text: string)   // setup: the name box
    | AddName(freshId: string) // setup: "+"
    | RemoveName(id: string)   // setup: "Eliminar"
    | ToggleCustomWord         // setup: "Palabra: Manual / Aleatoria"
    | EditWord(text: string)   // setup: the secret word box, shown in manual mode
    | LeaveSetup               // setup: "Volver"
    | Play(c: Choices)         // setup: "Jugar"
    | ConfirmIdentity          // reveal_pass: "SOY ..."
    | SeenSecret               // reveal_secret: "YA LO VI, SIGUIENTE"
    | VoteNow                  // discussion: "VOTAR AHORA"
    | OpenBallot               // vote_pass: "ABRIR VOTACIÓN"
    | Cast(target: string)     // vote_pick: a row of the ballot
    | ResultsHome              // results: "Inicio"
    | PlayAgain(c: Choices)    // results: "Jugar Otra Vez"
    | Back                     // hardware back, confirmed with "Salir"

  /** The phases that belong to a round in progress. */
  predicate InRound(p: Phase) {
    p != Home && p != Setup
  }

  /** The screen-to-screen edges the screens wire up, the confirmed back
      press included: a reference for `Step`. */
  predicate Edge(a: Phase, b: Phase) {
    || (a, b) in {(Home, Setup), (Home, RevealPass), (Setup, Home), (Setup, RevealPass),
                  (RevealPass, RevealSecret), (RevealSecret, RevealPass), (RevealSecret, Discussion),
                  (Discussion, VotePass), (VotePass, VotePick), (VotePick, VotePass),
                  (VotePick, Results), (Results, Home), (Results, RevealPass)}
    || (a != Home && b == Home)
  }

  /** What the event needs to be applied: legal draws for a round start, and
      a ballot row of the current voter for a vote (the ballot offers no
      other). */
  predicate Admissible(s: State, e: Event) {
    match e
    case QuickPlay(c) => |s.players| < MinPlayers || ValidChoices(c, |s.players|)
    case Play(c) => |s.players| < MinPlayers || ValidChoices(c, |s.players|)
    case PlayAgain(c) => |s.players| < MinPlayers || ValidChoices(c, |s.players|)
    case Cast(t) => s.phase == VotePick ==> s.voteIndex < |s.roundPlayers| && t in Ids(BallotOptions(s))
    case _ => true
  }

  /** What `uid()` guarantees of a new player's id. */
  predicate FreshId(s: State, e: Event) {
    e.AddName? ==> e.freshId !in Ids(s.players) && e.freshId != Skip
  }

  /** One event. Outside the phase whose screen offers it, an event changes
      nothing. The "+" button is disabled while the untrimmed name is shorter
      than two characters and "Jugar" while there are fewer than three
      players. */
  function Step(s: State, e: Event): (r: State)
    requires Admissible(s, e)
    ensures r.phase == s.phase || Edge(s.phase, r.phase)
    ensures !InRound(s.phase) && InRound(r.phase) ==> RoundStarted(s, r)
  {
    match e
    case QuickPlay(c) => if s.phase == Home then StartNewRound(s, c) else s
    case OpenSetup => if s.phase == Home then s.(phase := Setup) else s
    case EditName(text) => if s.phase == Setup then s.(newName := text) else s
    case AddName(id) => if s.phase == Setup && |s.newName| >= 2 then AddPlayerToState(s, id) else s
    case RemoveName(id) => if s.phase == Setup then s.(players := RemovePlayer(s.players, id)) else s
    case ToggleCustomWord => if s.phase == Setup then s.(useCustomWord := !s.useCustomWord) else s
    case EditWord(text) => if s.phase == Setup && s.useCustomWord then s.(customWord := text) else s
    case LeaveSetup => if s.phase == Setup then s.(phase := Home) else s
    case Play(c) => if s.phase == Setup && |s.players| >= MinPlayers then StartNewRound(s, c) else s
    case ConfirmIdentity => if s.phase == RevealPass then s.(phase := RevealSecret) else s
    case SeenSecret => if s.phase == RevealSecret then NextReveal(s) else s
    case VoteNow => if s.phase == Discussion then OpenVoting(s) else s
    case OpenBallot => if s.phase == VotePass then s.(phase := VotePick) else s
    case Cast(t) => if s.phase == VotePick then CastVote(s, t) else s
    case ResultsHome => if s.phase == Results then s.(phase := Home) else s
    case PlayAgain(c) => if s.phase == Results then StartNewRound(s, c) else s
    case Back => BackConfirmed(s)
  }

  /** The screen that shows each button; the back press has none, since
      every screen answers it. */
  function Screen(e: Event): Option<Phase> {
    match e
    case QuickPlay(_) => Some(Home)
    case OpenSetup => Some(Home)
    case EditName(_) => Some(Setup)
    case AddName(_) => Some(Setup)
    case RemoveName(_) => Some(Setup)
    case ToggleCustomWord => Some(Setup)
    case EditWord(_) => Some(Setup)
    case LeaveSetup => Some(Setup)
    case Play(_) => Some(Setup)
    case ConfirmIdentity => Some(RevealPass)
    case SeenSecret => Some(RevealSecret)
    case VoteNow => Some(Discussion)
    case OpenBallot => Some(VotePass)
    case Cast(_) => Some(VotePick)
    case ResultsHome => Some(Results)
    case PlayAgain(_) => Some(Results)
    case Back => None
  }

  /** A button is only wired on its own screen: anywhere else it does nothing. */
  lemma OffScreenIgnored(s: State, e: Event)
    requires Admissible(s, e)
    requires Screen(e).Some? && s.phase != Screen(e).value
    ensures Step(s, e) == s
  {
  }

  /** The buttons of the title, setup and results screens do what they say:
      each moves to its screen, or starts a round when there are enough
      players, and a round start with too few players changes nothing. */
  lemma MenuButtonsTakeEdges(s: State, c: Choices)
    requires |s.players| < MinPlayers || ValidChoices(c, |s.players|)
    ensures s.phase == Home ==> Step(s, OpenSetup) == s.(phase := Setup)
    ensures s.phase == Home && |s.players| >= MinPlayers ==> RoundStarted(s, Step(s, QuickPlay(c)))
    ensures s.phase == Home && |s.players| < MinPlayers ==> Step(s, QuickPlay(c)) == s
    ensures s.phase == Setup ==> Step(s, LeaveSetup) == s.(phase := Home)
    ensures s.phase == Setup && |s.players| >= MinPlayers ==> RoundStarted(s, Step(s, Play(c)))
    ensures s.phase == Setup && |s.players| < MinPlayers ==> Step(s, Play(c)) == s
    ensures s.phase == Results ==> Step(s, ResultsHome) == s.(phase := Home)
    ensures s.phase == Results && |s.players| >= MinPlayers ==> RoundStarted(s, Step(s, PlayAgain(c)))
  {
  }

  /** The setup screen's edits: the name box, "+", "Eliminar", the word
      mode switch and the word box each change what they show and stay on
      the setup screen. */
  lemma SetupButtonsEdit(s: State, text: string, id: string)
    requires s.phase == Setup
    ensures Step(s, EditName(text)) == s.(newName := text)
    ensures |s.newName| >= 2 ==> Step(s, AddName(id)) == AddPlayerToState(s, id)
    ensures |s.newName| < 2 ==> Step(s, AddName(id)) == s
    ensures Step(s, RemoveName(id)) == s.(players := RemovePlayer(s.players, id))
    ensures Step(s, ToggleCustomWord) == s.(useCustomWord := !s.useCustomWord)
    ensures s.useCustomWord ==> Step(s, EditWord(text)) == s.(customWord := text)
    ensures !s.useCustomWord ==> Step(s, EditWord(text)) == s
  {
  }

  /** The screen buttons inside a round each take their edge: "SOY ..."
      opens the reveal, "YA LO VI" passes the phone on or opens the debate
      after the last player, "VOTAR AHORA" and "ABRIR VOTACIÓN" open the
      vote, and a confirmed back press leaves for the title screen. */
  lemma RoundButtonsTakeEdges(s: State)
    ensures s.phase == RevealPass ==> Step(s, ConfirmIdentity) == s.(phase := RevealSecret)
    ensures s.phase == RevealSecret ==> Step(s, SeenSecret) == NextReveal(s)
    ensures s.phase == RevealSecret ==>
              Step(s, SeenSecret).phase == (if s.revealIndex + 1 < |s.roundPlayers| then RevealPass else Discussion)
    ensures s.phase == Discussion ==> Step(s, VoteNow) == s.(phase := VotePass, voteIndex := 0)
    ensures s.phase == VotePass ==> Step(s, OpenBallot) == s.(phase := VotePick)
    ensures s.phase != Home ==> Step(s, Back) == s.(phase := Home)
    ensures s.phase == Home ==> Step(s, Back) == s
  {
  }

  /** A row of the ballot records the current voter's choice in place of
      any earlier one, and passes the phone on or opens the results after
      the last voter. */
  lemma BallotRowTakesEdge(s: State, t: string)
    requires s.phase == VotePick && s.voteIndex < |s.roundPlayers| && t in Ids(BallotOptions(s))
    ensures Step(s, Cast(t)) == CastVote(s, t)
    ensures var r := Step(s, Cast(t));
            && r.phase == (if s.voteIndex + 1 < |s.roundPlayers| then VotePass else Results)
            && r.voteIndex == (if s.voteIndex + 1 < |s.roundPlayers| then s.voteIndex + 1 else s.voteIndex)
            && r.roundPlayers == s.roundPlayers && r.impostorId == s.impostorId && r.secret == s.secret
            && r.votes == RemoveVoter(s.votes, s.roundPlayers[s.voteIndex].id) + [Ballot(s.roundPlayers[s.voteIndex].id, t)]
  {
    var r := Step(s, Cast(t));
    assert r.votes == r.votes[..|r.votes| - 1] + [r.votes[|r.votes| - 1]];
  }

  /** Only the setup screen edits the roster, and it stays on the setup
      screen while doing so. */
  lemma RosterEditedOnlyInSetup(s: State, e: Event)
    requires Admissible(s, e)
    ensures Step(s, e).players != s.players ==> s.phase == Setup && Step(s, e).phase == Setup
  {
  }

  /** No event inside a round, leaving for the title screen and starting a
      new round included, changes the roster or the word mode; and only
      "Jugar Otra Vez" deals again: every other event keeps the round
      players, the impostor and the secret. */
  lemma RoundKeepsConfig(s: State, e: Event)
    requires Admissible(s, e) && InRound(s.phase)
    ensures var r := Step(s, e);
            r.players == s.players && r.useCustomWord == s.useCustomWord
    ensures var r := Step(s, e);
            !e.PlayAgain? ==> r.roundPlayers == s.roundPlayers && r.impostorId == s.impostorId && r.secret == s.secret
  {
  }

  /** A ballot names the skip entry or another round player. */
  predicate ValidTarget(b: Ballot, rp: seq<Player>) {
    b.targetId == Skip || (b.targetId in Ids(rp) && b.targetId != b.voterId)
  }

  /** What holds throughout a round: the shuffled roster is the roster, valid,
      with one impostor and a secret; the cursors point at round players;
      every ballot names skip or somebody else. */
  predicate RoundInv(s: State) {
    && |s.roundPlayers| >= MinPlayers
    && ValidRoster(s.roundPlayers)
    && multiset(s.roundPlayers) == multiset(s.players)
    && s.impostorId in Ids(s.roundPlayers)
    && s.secret.Some?
    && s.revealIndex < |s.roundPlayers|
    && s.voteIndex < |s.roundPlayers|
    && forall b :: b in s.votes ==> ValidTarget(b, s.roundPlayers)
  }

  /** Per phase: no ballots before voting; the reveal cursor on the last
      player during the debate; while voting, the ballots are those of the
      players before the cursor, in turn; at the results, one ballot per
      round player, in turn. */
  predicate PhaseInv(s: State)
    requires |s.roundPlayers| >= 1
  {
    match s.phase
    case Home => true
    case Setup => true
    case RevealPass => s.votes == []
    case RevealSecret => s.votes == []
    case Discussion => s.votes == [] && s.revealIndex == |s.roundPlayers| - 1
    case VotePass => s.voteIndex <= |s.roundPlayers| && Voters(s.votes) == Ids(s.roundPlayers)[..s.voteIndex]
    case VotePick => s.voteIndex <= |s.roundPlayers| && Voters(s.votes) == Ids(s.roundPlayers)[..s.voteIndex]
    case Results => Voters(s.votes) == Ids(s.roundPlayers) && s.voteIndex == |s.roundPlayers| - 1
  }

  /** The machine invariant. */
  predicate Inv(s: State) {
    ValidRoster(s.players) && (InRound(s.phase) ==> RoundInv(s) && PhaseInv(s))
  }

  /** The state at mount satisfies the invariant when the three ids are
      distinct and none is "skip". */
  lemma InitialInv(id1: string, id2: string, id3: string)
    requires id1 != id2 && id1 != id3 && id2 != id3
    requires Skip !in [id1, id2, id3]
    ensures Inv(Initial(id1, id2, id3))
  {
    assert Ids(Initial(id1, id2, id3).players) == [id1, id2, id3];
  }

  /** Removing any id, present or not, keeps a valid roster valid. */
  lemma RemoveKeepsRosterValid(ps: seq<Player>, id: string)
    requires ValidRoster(ps)
    ensures ValidRoster(RemovePlayer(ps, id))
  {
    if id in Ids(ps) {
      var k :| 0 <= k < |ps| && Ids(ps)[k] == id;
      RemoveFromValidRoster(ps, k);
    } else {
      RemoveAbsent(ps, id);
    }
  }

  /** A round started from a valid roster of three or more satisfies the
      invariant, whatever the state it started from. */
  lemma StartRoundInv(s: State, c: Choices)
    requires ValidRoster(s.players)
    requires |s.players| >= MinPlayers && ValidChoices(c, |s.players|)
    ensures Inv(StartNewRound(s, c))
  {
    var r := StartNewRound(s, c);
    StartKeepsRosterValid(s, c);
    assert |r.roundPlayers| == |multiset(r.roundPlayers)| == |s.players|;
  }

  /** A round start keeps the invariant (below three players it changes nothing). */
  lemma StartKeepsInv(s: State, c: Choices)
    requires Inv(s)
    requires |s.players| < MinPlayers || ValidChoices(c, |s.players|)
    ensures Inv(StartNewRound(s, c))
  {
    if |s.players| >= MinPlayers {
      StartRoundInv(s, c);
    }
  }

  /** During a round the roster has as many players as the round. */
  lemma RosterSizeInRound(s: State)
    requires Inv(s) && InRound(s.phase)
    ensures |s.players| == |s.roundPlayers| >= MinPlayers
  {
    assert |s.players| == |multiset(s.players)| == |multiset(s.roundPlayers)| == |s.roundPlayers|;
  }

  /** "Jugar Otra Vez" always starts a round: the roster a round was
      started from still has at least three players. */
  lemma PlayAgainStarts(s: State, c: Choices)
    requires Inv(s) && s.phase == Results
    requires ValidChoices(c, |s.players|)
    ensures RoundStarted(s, Step(s, PlayAgain(c)))
  {
    RosterSizeInRound(s);
  }

  /** A row of the ballot names skip or a round player other than the voter. */
  lemma BallotTarget(s: State, t: string)
    requires s.voteIndex < |s.roundPlayers|
    requires t in Ids(BallotOptions(s))
    ensures t == Skip || (t in Ids(s.roundPlayers) && t != s.roundPlayers[s.voteIndex].id)
  {
    var opts := BallotOptions(s);
    var k :| 0 <= k < |opts| && Ids(opts)[k] == t;
    if k < |opts| - 1 {
      assert opts[k] in opts[..|opts| - 1];
      var j :| 0 <= j < |s.roundPlayers| && s.roundPlayers[j] == opts[k];
      assert Ids(s.roundPlayers)[j] == t;
    }
  }

  /** A vote keeps the round part of the invariant: the new ballot names
      skip or another round player. */
  lemma CastKeepsRoundInv(s: State, t: string)
    requires Inv(s) && s.phase == VotePick
    requires s.voteIndex < |s.roundPlayers| && t in Ids(BallotOptions(s))
    ensures RoundInv(CastVote(s, t))
  {
    var r := CastVote(s, t);
    var b := Ballot(s.roundPlayers[s.voteIndex].id, t);
    BallotTarget(s, t);
    assert ValidTarget(b, s.roundPlayers);
    assert r.votes == r.votes[..|r.votes| - 1] + [b];
    assert forall x :: x in r.votes ==> x in s.votes || x == b;
  }

  /** A vote keeps the phase part of the invariant: the ballot goes after
      those of the earlier voters, and the last vote opens the results with
      one ballot each. */
  lemma CastKeepsPhaseInv(s: State, t: string)
    requires Inv(s) && s.phase == VotePick
    requires s.voteIndex < |s.roundPlayers|
    ensures PhaseInv(CastVote(s, t))
  {
    var rp, vi := s.roundPlayers, s.voteIndex;
    VoteInTurn(s, t);
    if vi + 1 >= |rp| {
      assert Ids(rp)[..vi + 1] == Ids(rp);
    }
  }

  /** A vote keeps the invariant. */
  lemma CastKeepsInv(s: State, t: string)
    requires Inv(s) && s.phase == VotePick
    requires s.voteIndex < |s.roundPlayers| && t in Ids(BallotOptions(s))
    ensures Inv(CastVote(s, t))
  {
    CastKeepsRoundInv(s, t);
    CastKeepsPhaseInv(s, t);
  }

  /** `nextReveal` keeps the invariant: the cursor stays on a round player
      and the debate opens on the last one. */
  lemma RevealKeepsInv(s: State)
    requires Inv(s) && s.phase == RevealSecret
    ensures Inv(NextReveal(s))
  {
  }

  /** The round-start events keep the invariant. */
  lemma StartEventsKeepInv(s: State, e: Event)
    requires Inv(s) && Admissible(s, e)
    requires e.QuickPlay? || e.Play? || e.PlayAgain?
    ensures Inv(Step(s, e))
  {
    match e {
      case QuickPlay(c) =>
        if s.phase == Home { StartKeepsInv(s, c); }
      case Play(c) =>
        if s.phase == Setup && |s.players| >= MinPlayers { StartKeepsInv(s, c); }
      case PlayAgain(c) =>
        if s.phase == Results {
          RosterSizeInRound(s);
          StartRoundInv(s, c);
        }
    }
  }

  /** The setup screen's edits keep the invariant. */
  lemma SetupEventsKeepInv(s: State, e: Event)
    requires Inv(s) && FreshId(s, e)
    requires e.EditName? || e.AddName? || e.RemoveName? || e.ToggleCustomWord? || e.EditWord? || e.LeaveSetup?
    ensures Inv(Step(s, e))
  {
    match e {
      case AddName(id) =>
        if s.phase == Setup && |s.newName| >= 2 {
          AddPlayerKeepsRosterValid(s.players, s.newName, id);
        }
      case RemoveName(id) =>
        if s.phase == Setup { RemoveKeepsRosterValid(s.players, id); }
      case _ =>
    }
  }

  /** Every event keeps the invariant, given a fresh id for a new player. */
  lemma StepKeepsInv(s: State, e: Event)
    requires Inv(s) && Admissible(s, e) && FreshId(s, e)
    ensures Inv(Step(s, e))
  {
    match e {
      case QuickPlay(_) => StartEventsKeepInv(s, e);
      case Play(_) => StartEventsKeepInv(s, e);
      case PlayAgain(_) => StartEventsKeepInv(s, e);
      case EditName(_) => SetupEventsKeepInv(s, e);
      case AddName(_) => SetupEventsKeepInv(s, e);
      case RemoveName(_) => SetupEventsKeepInv(s, e);
      case ToggleCustomWord => SetupEventsKeepInv(s, e);
      case EditWord(_) => SetupEventsKeepInv(s, e);
      case LeaveSetup => SetupEventsKeepInv(s, e);
      case SeenSecret =>
        if s.phase == RevealSecret { RevealKeepsInv(s); }
      case VoteNow =>
        if s.phase == Discussion {
          assert Voters([]) == Ids(s.roundPlayers)[..0];
        }
      case Cast(t) =>
        if s.phase == VotePick { CastKeepsInv(s, t); }
      case _ =>
    }
  }

  /** In every phase of a round exactly one round player is the impostor and
      the round players are the roster, reordered. */
  lemma OneImpostorPerRound(s: State)
    requires Inv(s) && InRound(s.phase)
    ensures ExactlyOneImpostor(s)
    ensures multiset(s.roundPlayers) == multiset(s.players)
  {
    OneImpostorInValidRoster(s);
  }

  /** On the reveal screen of a reachable state, holding the area shows the
      impostor card to the impostor and the secret word to everyone else;
      of all the cursor positions of the round, exactly one gets the
      impostor card. */
  lemma RevealViews(s: State, holding: bool)
    requires Inv(s) && s.phase == RevealSecret
    ensures holding && s.roundPlayers[s.revealIndex].id == s.impostorId ==> View(s, holding) == ImpostorCard
    ensures holding && s.roundPlayers[s.revealIndex].id != s.impostorId ==>
              s.secret.Some? && View(s, holding) == CrewCard(s.secret)
    ensures exists k :: 0 <= k < |s.roundPlayers| && View(s.(revealIndex := k), true) == ImpostorCard
    ensures forall i, j :: 0 <= i < j < |s.roundPlayers| ==>
              View(s.(revealIndex := i), true) != ImpostorCard || View(s.(revealIndex := j), true) != ImpostorCard
  {
    var rp := s.roundPlayers;
    var k := Position(Ids(rp), s.impostorId);
    assert View(s.(revealIndex := k), true) == ImpostorCard;
    forall i, j | 0 <= i < j < |rp|
      ensures View(s.(revealIndex := i), true) != ImpostorCard || View(s.(revealIndex := j), true) != ImpostorCard
    {
      assert Ids(rp)[i] != Ids(rp)[j];
    }
  }

  /** On the results screen every round player has voted exactly once,
      nobody for themself; the tally is therefore non-empty and the screen
      names the impostor. */
  lemma ResultsFacts(s: State)
    requires Inv(s) && s.phase == Results
    ensures |s.votes| == |s.roundPlayers|
    ensures Distinct(Voters(s.votes))
    ensures forall b :: b in s.votes ==> b.targetId != b.voterId
    ensures Tally(s.votes) != []
    ensures exists k :: 0 <= k < |s.roundPlayers| && s.roundPlayers[k].id == s.impostorId &&
                        ShowResults(s).impostorName == Some(s.roundPlayers[k].name)
  {
    var rp := s.roundPlayers;
    assert forall b :: b in s.votes ==> ValidTarget(b, rp);
    TallyNonEmpty(s.votes);
    var k :| 0 <= k < |rp| && Ids(rp)[k] == s.impostorId;
    FindNameInValidRoster(rp, k);
  }
}

=== FILE: roster.dfy ===
/** Players and the roster edits of the setup screen. */
module Roster {
  import Text
  import Votes
  import opened Basics

  /** `Player`: an opaque id (from `uid()`) and a display name. */
  datatype Player = Player(id: string, name: string)

  /** The ids of `ps`, in order. */
  function Ids(ps: seq<Player>): (r: seq<string>)
    ensures |r| == |ps|
    ensures forall i :: 0 <= i < |ps| ==> r[i] == ps[i].id
  {
    seq(|ps|, i requires 0 <= i < |ps| => ps[i].id)
  }

  /** What `uid()` guarantees of a roster: ids are pairwise distinct and none
      is the ballot's `"skip"` (a `uid` always contains `_`). */
  predicate ValidRoster(ps: seq<Player>) {
    Distinct(Ids(ps)) && Votes.Skip !in Ids(ps)
  }

  /** `addPlayer` on the roster: a name whose trimmed form is shorter than 2
      characters is refused; otherwise a player with the trimmed name and the
      fresh id is appended. */
  function AddPlayer(ps: seq<Player>, newName: string, freshId: string): (r: seq<Player>)
    ensures |Text.Trim(newName)| < 2 ==> r == ps
    ensures |Text.Trim(newName)| >= 2 ==>
              && |r| == |ps| + 1
              && r[..|ps|] == ps
              && r[|ps|] == Player(freshId, Text.Trim(newName))
  {
    var name := Text.Trim(newName);
    if |name| < 2 then ps else ps + [Player(freshId, name)]
  }

  /** A player added to a valid roster with a fresh id keeps it valid, and the
      new name is at least two characters with no whitespace at either end. */
  lemma AddPlayerKeepsRosterValid(ps: seq<Player>, newName: string, freshId: string)
    requires ValidRoster(ps)
    requires freshId !in Ids(ps) && freshId != Votes.Skip
    ensures ValidRoster(AddPlayer(ps, newName, freshId))
    ensures forall p :: p in AddPlayer(ps, newName, freshId) && p !in ps ==>
              |p.name| >= 2 && !Text.IsSpace(p.name[0]) && !Text.IsSpace(p.name[|p.name| - 1])
  {
    var r := AddPlayer(ps, newName, freshId);
    if |r| > |ps| {
      assert Ids(r) == Ids(ps) + [freshId];
    }
  }

  /** `players.filter((p) => p.id !== id)`. */
  function RemovePlayer(ps: seq<Player>, id: string): (r: seq<Player>)
    ensures |r| <= |ps|
    ensures forall p :: p in r <==> p in ps && p.id != id
  {
    if ps == [] then []
    else if ps[0].id == id then RemovePlayer(ps[1..], id)
    else [ps[0]] + RemovePlayer(ps[1..], id)
  }

  /** Removal distributes over concatenation, so it keeps the survivors in
      their original order. */
  lemma {:induction false} RemoveAppend(a: seq<Player>, b: seq<Player>, id: string)
    ensures RemovePlayer(a + b, id) == RemovePlayer(a, id) + RemovePlayer(b, id)
  {
    if a == [] {
      assert a + b == b;
    } else {
      assert (a + b)[1..] == a[1..] + b;
      RemoveAppend(a[1..], b, id);
    }
  }

  /** Removing an id nobody has changes nothing. */
  lemma {:induction false} RemoveAbsent(ps: seq<Player>, id: string)
    requires id !in Ids(ps)
    ensures RemovePlayer(ps, id) == ps
  {
    if ps != [] {
      assert Ids(ps[1..]) == Ids(ps)[1..];
      RemoveAbsent(ps[1..], id);
    }
  }

  /** In a valid roster, removing the player at position `k` by its id takes
      out exactly that player and leaves the others in order. */
  lemma {:induction false} RemoveFromValidRoster(ps: seq<Player>, k: int)
    requires ValidRoster(ps)
    requires 0 <= k < |ps|
    ensures RemovePlayer(ps, ps[k].id) == ps[..k] + ps[k + 1..]
    ensures ValidRoster(RemovePlayer(ps, ps[k].id))
  {
    var a, b := ps[..k], ps[k + 1..];
    IdOnlyAt(ps, k);
    SplitAt(ps, k);
    RemoveSplice(a, b, ps[k]);
    DropKeepsValid(ps, k);
  }

  lemma SplitAt(ps: seq<Player>, k: int)
    requires 0 <= k < |ps|
    ensures ps == ps[..k] + ([ps[k]] + ps[k + 1..])
  {
  }

  /** Removing the id of a player who occurs once, between `a` and `b`,
      leaves `a` followed by `b`. */
  lemma RemoveSplice(a: seq<Player>, b: seq<Player>, p: Player)
    requires p.id !in Ids(a) && p.id !in Ids(b)
    ensures RemovePlayer(a + ([p] + b), p.id) == a + b
  {
    RemoveAppend(a, [p] + b, p.id);
    assert ([p] + b)[1..] == b;
    RemoveAbsent(a, p.id);
    RemoveAbsent(b, p.id);
  }

  /** In a valid roster the id at position `k` occurs nowhere else. */
  lemma IdOnlyAt(ps: seq<Player>, k: int)
    requires ValidRoster(ps)
    requires 0 <= k < |ps|
    ensures ps[k].id !in Ids(ps[..k]) && ps[k].id !in Ids(ps[k + 1..])
  {
    var id := ps[k].id;
    var a, b := ps[..k], ps[k + 1..];
    assert forall i :: 0 <= i < |a| ==> Ids(a)[i] == Ids(ps)[i];
    forall j | 0 <= j < |b|
      ensures b[j].id != id
    {
      assert b[j] == ps[k + 1 + j];
      assert Ids(ps)[k] != Ids(ps)[k + 1 + j];
    }
  }

  /** Dropping one player from a valid roster leaves a valid roster. */
  lemma DropKeepsValid(ps: seq<Player>, k: int)
    requires ValidRoster(ps)
    requires 0 <= k < |ps|
    ensures ValidRoster(ps[..k] + ps[k + 1..])
  {
    var r := ps[..k] + ps[k + 1..];
    assert forall i :: 0 <= i < |r| ==> Ids(r)[i] == Ids(ps)[if i < k then i else i + 1];
  }
}

=== FILE: round.dfy ===
/** The state of the Impostor game screen and its handlers, each a pure
    function from the state before to the state after. Random draws and the
    fresh ids of `uid()` are parameters. */
module Round {
  import opened Basics
  import opened Roster
  import opened Votes
  import opened Words
  import Shuffle
  import Text

  /** A round needs at least this many players. */
  const MinPlayers: nat := 3

  /** Display name of the "skip" entry of the ballot. */
  const SkipLabel: string := "Salvar / No sé"

  /** `Phase`: which screen is showing. */
  datatype Phase =
    | Home          // title screen
    | Setup         // roster and word configuration
    | RevealPass    // "pass the phone to ..."
    | RevealSecret  // press and hold to see the role
    | Discussion    // debate, optional countdown
    | VotePass      // "turn to vote: ..."
    | VotePick      // the current voter's ballot
    | Results       // outcome

  /** The component's state, less the countdown and the press-and-hold flag. */
  datatype State = State(
    phase: Phase,
    players: seq<Player>,
    newName: string,
    customWord: string,
    customCategory: string,
    useCustomWord: bool,
    roundPlayers: seq<Player>,
    impostorId: string,
    secret: Option<Word>,
    revealIndex: nat,
    voteIndex: nat,
    votes: seq<Ballot>)

  /** The state when the screen mounts: three default players whose ids are
      three `uid()` results. */
  function Initial(id1: string, id2: string, id3: string): (s: State)
    ensures s.phase == Home && |s.players| == MinPlayers
    ensures Ids(s.players) == [id1, id2, id3]
    ensures s.players[0].name == "Jugador 1" && s.players[1].name == "Jugador 2" && s.players[2].name == "Jugador 3"
    ensures s.newName == "" && s.customWord == "" && s.customCategory == "" && !s.useCustomWord
    ensures s.roundPlayers == [] && s.revealIndex == 0 && s.voteIndex == 0
    ensures s.votes == [] && s.secret == None
  {
    State(Home, [Player(id1, "Jugador 1"), Player(id2, "Jugador 2"), Player(id3, "Jugador 3")],
          "", "", "", false, [], "", None, 0, 0, [])
  }

  /** The random draws of one round start: the shuffle's swap positions, the
      impostor's position in the shuffled list, the word bank index. */
  datatype Choices = Choices(draws: seq<nat>, impostor: nat, word: nat)

  /** The draws are in the ranges `Math.random` gives for `n` players. */
  predicate ValidChoices(c: Choices, n: nat) {
    Shuffle.ValidDraws(c.draws, n) && c.impostor < n && c.word < |WordBank|
  }

  /** What a successful round start promises: a shuffled copy of the roster,
      an impostor from it, a secret, fresh cursors and ballots, the
      `reveal_pass` screen, and the roster and configuration untouched. */
  predicate RoundStarted(s: State, r: State) {
    && r.phase == RevealPass
    && multiset(r.roundPlayers) == multiset(s.players)
    && r.impostorId in Ids(r.roundPlayers)
    && r.secret.Some?
    && (s.useCustomWord ==>
          r.secret.value == Word(OrElse(s.customCategory, DefaultCategory), OrElse(s.customWord, DefaultWord)))
    && (!s.useCustomWord ==> r.secret.value in WordBank)
    && r.revealIndex == 0 && r.voteIndex == 0 && r.votes == []
    && r.players == s.players && r.newName == s.newName
    && r.customWord == s.customWord && r.customCategory == s.customCategory
    && r.useCustomWord == s.useCustomWord
  }

  /** `startNewRound`: refused (nothing changes) below three players;
      otherwise shuffles the roster, picks the impostor and the secret, and
      resets the round. The `keep` argument has no effect. */
  function StartNewRound(s: State, c: Choices): (r: State)
    requires |s.players| < MinPlayers || ValidChoices(c, |s.players|)
    ensures |s.players| < MinPlayers ==> r == s
    ensures |s.players| >= MinPlayers ==> RoundStarted(s, r)
  {
    if |s.players| < MinPlayers then s
    else
      var rp := Shuffle.Shuffle(s.players, c.draws);
      var imp := rp[c.impostor].id;
      var w := ChooseSecret(s.useCustomWord, s.customCategory, s.customWord, c.word);
      s.(roundPlayers := rp, impostorId := imp, secret := Some(w),
         revealIndex := 0, voteIndex := 0, votes := [], phase := RevealPass)
  }

  /** `ids` lists the ids of `ps`, position by position. */
  predicate IdsMatch(ps: seq<Player>, ids: seq<string>) {
    |ps| == |ids| && forall k :: 0 <= k < |ps| ==> ps[k].id == ids[k]
  }

  /** Shuffling players and shuffling their ids with the same draws keep
      the two lists matched. */
  lemma {:induction false} ShuffleDownIds(ps: seq<Player>, ids: seq<string>, js: seq<nat>, i: int)
    requires Shuffle.ValidDraws(js, |ps|)
    requires -1 <= i < |ps|
    requires IdsMatch(ps, ids)
    ensures IdsMatch(Shuffle.ShuffleDown(ps, js, i), Shuffle.ShuffleDown(ids, js, i))
    decreases i
  {
    if i > 0 {
      var q, qi := Shuffle.Swap(ps, i, js[i]), Shuffle.Swap(ids, i, js[i]);
      SwapIds(ps, ids, i, js[i]);
      ShuffleDownIds(q, qi, js, i - 1);
    }
  }

  /** Swapping the same two positions keeps the lists matched. */
  lemma SwapIds(ps: seq<Player>, ids: seq<string>, i: nat, j: nat)
    requires i < |ps| && j < |ps|
    requires IdsMatch(ps, ids)
    ensures IdsMatch(Shuffle.Swap(ps, i, j), Shuffle.Swap(ids, i, j))
  {
    var a, b := Shuffle.Swap(ps, i, j), Shuffle.Swap(ids, i, j);
    forall k | 0 <= k < |a|
      ensures a[k].id == b[k]
    {
    }
  }

  /** A round started from a valid roster has a valid list of round players,
      and exactly one of them is the impostor. */
  lemma StartKeepsRosterValid(s: State, c: Choices)
    requires |s.players| >= MinPlayers && ValidChoices(c, |s.players|)
    requires ValidRoster(s.players)
    ensures ValidRoster(StartNewRound(s, c).roundPlayers)
    ensures ExactlyOneImpostor(StartNewRound(s, c))
  {
    ShuffleKeepsRosterValid(s.players, c.draws);
    OneImpostorInValidRoster(StartNewRound(s, c));
  }

  lemma ShuffleKeepsRosterValid(ps: seq<Player>, js: seq<nat>)
    requires Shuffle.ValidDraws(js, |ps|)
    requires ValidRoster(ps)
    ensures ValidRoster(Shuffle.Shuffle(ps, js))
  {
    ShuffleDownIds(ps, Ids(ps), js, |ps| - 1);
    assert Ids(Shuffle.Shuffle(ps, js)) == Shuffle.Shuffle(Ids(ps), js);
  }

  /** Round player `i` holds the impostor's id. */
  predicate ImpostorAt(s: State, i: int) {
    0 <= i < |s.roundPlayers| && s.roundPlayers[i].id == s.impostorId
  }

  /** Exactly one round player holds the impostor's id. */
  ghost predicate ExactlyOneImpostor(s: State) {
    exists k :: ImpostorAt(s, k) && forall i :: ImpostorAt(s, i) ==> i == k
  }

  lemma OneImpostorInValidRoster(s: State)
    requires ValidRoster(s.roundPlayers)
    requires s.impostorId in Ids(s.roundPlayers)
    ensures ExactlyOneImpostor(s)
  {
    var rp := s.roundPlayers;
    var k := Position(Ids(rp), s.impostorId);
    forall i | ImpostorAt(s, i)
      ensures i == k
    {
      assert Ids(rp)[i] == Ids(rp)[k];
    }
    assert ImpostorAt(s, k);
  }

  /** `addPlayer` on the whole state: on success the input box is cleared. */
  function AddPlayerToState(s: State, freshId: string): (r: State)
    ensures r.players == AddPlayer(s.players, s.newName, freshId)
    ensures |Text.Trim(s.newName)| < 2 ==> r == s
    ensures |Text.Trim(s.newName)| >= 2 ==> r == s.(players := r.players, newName := "")
  {
    if |Text.Trim(s.newName)| < 2 then s
    else s.(players := AddPlayer(s.players, s.newName, freshId), newName := "")
  }

  /** `nextReveal`: advance the reveal cursor to the next player, or open
      the discussion after the last one. */
  function NextReveal(s: State): (r: State)
    ensures s.revealIndex + 1 < |s.roundPlayers| ==> r.revealIndex == s.revealIndex + 1 && r.phase == RevealPass
    ensures s.revealIndex + 1 >= |s.roundPlayers| ==> r.revealIndex == s.revealIndex && r.phase == Discussion
    ensures s.revealIndex < |s.roundPlayers| ==> r.revealIndex < |r.roundPlayers|
    ensures r.(phase := s.phase, revealIndex := s.revealIndex) == s
  {
    if s.revealIndex + 1 < |s.roundPlayers| then s.(revealIndex := s.revealIndex + 1, phase := RevealPass)
    else s.(phase := Discussion)
  }

  /** `nextReveal` called `k` times in a row. */
  function Reveals(s: State, k: nat): State {
    if k == 0 then s else NextReveal(Reveals(s, k - 1))
  }

  /** From the first player, each of the first `n - 1` calls of `nextReveal`
      moves to the next player and back to `reveal_pass`; the `n`-th opens the
      discussion with the cursor still on the last player; nothing else changes. */
  lemma {:induction false} RevealWalk(s: State, k: nat)
    requires s.revealIndex == 0 && |s.roundPlayers| >= 1
    requires k <= |s.roundPlayers|
    ensures 0 < k < |s.roundPlayers| ==> Reveals(s, k).revealIndex == k && Reveals(s, k).phase == RevealPass
    ensures k == |s.roundPlayers| ==>
              Reveals(s, k).revealIndex == |s.roundPlayers| - 1 && Reveals(s, k).phase == Discussion
    ensures Reveals(s, k).revealIndex < |s.roundPlayers|
    ensures Reveals(s, k).(phase := s.phase, revealIndex := s.revealIndex) == s
  {
    if k > 0 {
      RevealWalk(s, k - 1);
      var p := Reveals(s, k - 1);
      assert k - 1 < |s.roundPlayers| ==> p.revealIndex == k - 1;
    }
  }

  /** The "VOTAR AHORA" button: reset the vote cursor and open voting. */
  function OpenVoting(s: State): (r: State)
    ensures r.phase == VotePass && r.voteIndex == 0
    ensures r.(phase := s.phase, voteIndex := s.voteIndex) == s
  {
    s.(voteIndex := 0, phase := VotePass)
  }

  /** The voter ids of a list of ballots, in order. */
  function Voters(votes: seq<Ballot>): (r: seq<string>)
    ensures |r| == |votes|
    ensures forall i :: 0 <= i < |votes| ==> r[i] == votes[i].voterId
  {
    seq(|votes|, i requires 0 <= i < |votes| => votes[i].voterId)
  }

  /** `votes.filter((v) => v.voterId !== voter)`. */
  function RemoveVoter(votes: seq<Ballot>, voter: string): (r: seq<Ballot>)
    ensures |r| <= |votes|
    ensures forall b :: b in r <==> b in votes && b.voterId != voter
  {
    if votes == [] then []
    else if votes[0].voterId == voter then RemoveVoter(votes[1..], voter)
    else [votes[0]] + RemoveVoter(votes[1..], voter)
  }

  /** Dropping a voter's ballots keeps the other ballots in their order. */
  lemma {:induction false} RemoveVoterAppend(a: seq<Ballot>, b: seq<Ballot>, voter: string)
    ensures RemoveVoter(a + b, voter) == RemoveVoter(a, voter) + RemoveVoter(b, voter)
  {
    if a == [] {
      assert a + b == b;
    } else {
      assert (a + b)[1..] == a[1..] + b;
      RemoveVoterAppend(a[1..], b, voter);
    }
  }

  /** Dropping the ballots of someone who has not voted changes nothing. */
  lemma {:induction false} RemoveVoterAbsent(votes: seq<Ballot>, voter: string)
    requires voter !in Voters(votes)
    ensures RemoveVoter(votes, voter) == votes
  {
    if votes != [] {
      assert Voters(votes[1..]) == Voters(votes)[1..];
      RemoveVoterAbsent(votes[1..], voter);
    }
  }

  /** `vote(targetId)`: the current voter's earlier ballot (if any) is
      dropped, the new one goes last, and the cursor moves on, or the results
      open after the last voter. The handler reads `roundPlayers[voteIndex].id`,
      so the cursor must point at a round player. */
  function CastVote(s: State, target: string): (r: State)
    requires s.voteIndex < |s.roundPlayers|
    ensures |r.votes| >= 1
    ensures r.votes[|r.votes| - 1] == Ballot(s.roundPlayers[s.voteIndex].id, target)
    ensures r.votes[..|r.votes| - 1] == RemoveVoter(s.votes, s.roundPlayers[s.voteIndex].id)
    ensures Distinct(Voters(s.votes)) ==> Distinct(Voters(r.votes))
    ensures s.voteIndex + 1 < |s.roundPlayers| ==> r.voteIndex == s.voteIndex + 1 && r.phase == VotePass
    ensures s.voteIndex + 1 >= |s.roundPlayers| ==> r.voteIndex == s.voteIndex && r.phase == Results
    ensures r.roundPlayers == s.roundPlayers && r.voteIndex < |r.roundPlayers|
    ensures r.(phase := s.phase, voteIndex := s.voteIndex, votes := s.votes) == s
  {
    var voter := s.roundPlayers[s.voteIndex].id;
    var kept := RemoveVoter(s.votes, voter);
    var votes := kept + [Ballot(voter, target)];
    assert Distinct(Voters(s.votes)) ==> Distinct(Voters(votes)) by {
      if Distinct(Voters(s.votes)) {
        RemoveVoterKeepsDistinct(s.votes, voter);
        RemoveVoterRemoves(s.votes, voter);
        assert Voters(votes) == Voters(kept) + [voter];
        DistinctSnoc(Voters(kept), voter);
      }
    }
    if s.voteIndex + 1 < |s.roundPlayers| then s.(votes := votes, voteIndex := s.voteIndex + 1, phase := VotePass)
    else s.(votes := votes, phase := Results)
  }

  /** Filtering out a voter keeps distinct voters distinct. */
  lemma {:induction false} RemoveVoterKeepsDistinct(votes: seq<Ballot>, voter: string)
    requires Distinct(Voters(votes))
    ensures Distinct(Voters(RemoveVoter(votes, voter)))
  {
    if votes != [] {
      var x, t := votes[0], votes[1..];
      var rt := RemoveVoter(t, voter);
      assert votes == [x] + t;
      VotersCons(x, t);
      DistinctCons(x.voterId, Voters(t));
      RemoveVoterKeepsDistinct(t, voter);
      if x.voterId != voter {
        assert RemoveVoter(votes, voter) == [x] + rt;
        RemoveVoterKeepsOut(t, voter, x.voterId);
        VotersCons(x, rt);
        DistinctCons(x.voterId, Voters(rt));
      } else {
        assert RemoveVoter(votes, voter) == rt;
      }
    }
  }

  /** The voters of a ballot list are its first ballot's voter and then the rest's. */
  lemma VotersCons(x: Ballot, t: seq<Ballot>)
    ensures Voters([x] + t) == [x.voterId] + Voters(t)
  {
    var a, b := Voters([x] + t), [x.voterId] + Voters(t);
    forall i | 0 <= i < |a|
      ensures a[i] == b[i]
    {
      if i > 0 {
        assert ([x] + t)[i] == t[i - 1];
      }
    }
  }

  /** Filtering adds no voter: one who had not voted still has not. */
  lemma RemoveVoterKeepsOut(votes: seq<Ballot>, voter: string, x: string)
    requires x !in Voters(votes)
    ensures x !in Voters(RemoveVoter(votes, voter))
  {
    var r := RemoveVoter(votes, voter);
    forall i | 0 <= i < |r|
      ensures Voters(r)[i] != x
    {
      assert r[i] in votes;
      var j := Position(votes, r[i]);
      assert Voters(votes)[j] == r[i].voterId;
    }
  }

  /** After filtering, the voter has no ballot left. */
  lemma RemoveVoterRemoves(votes: seq<Ballot>, voter: string)
    ensures voter !in Voters(RemoveVoter(votes, voter))
  {
    var r := RemoveVoter(votes, voter);
    forall i | 0 <= i < |r|
      ensures Voters(r)[i] != voter
    {
      assert r[i] in r;
    }
  }

  /** `vote` applied once per target, in order. */
  function CastVotes(s: State, targets: seq<string>): (r: State)
    requires s.voteIndex < |s.roundPlayers|
    ensures r.voteIndex < |r.roundPlayers|
    decreases |targets|
  {
    if targets == [] then s else CastVotes(CastVote(s, targets[0]), targets[1..])
  }

  /** The ballots of round players `j`, `j + 1`, ... for `targets`, in turn. */
  function Turns(rp: seq<Player>, j: nat, targets: seq<string>): (r: seq<Ballot>)
    requires j + |targets| <= |rp|
    ensures |r| == |targets|
    ensures forall i :: 0 <= i < |targets| ==> r[i] == Ballot(rp[j + i].id, targets[i])
  {
    seq(|targets|, i requires 0 <= i < |targets| => Ballot(rp[j + i].id, targets[i]))
  }

  lemma TurnsCons(rp: seq<Player>, j: nat, targets: seq<string>)
    requires |targets| > 0 && j + |targets| <= |rp|
    ensures Turns(rp, j, targets) == [Ballot(rp[j].id, targets[0])] + Turns(rp, j + 1, targets[1..])
  {
  }

  /** One more ballot by the next round player extends the voters in turn. */
  lemma VotersExtend(votes: seq<Ballot>, rp: seq<Player>, j: nat, target: string)
    requires j < |rp|
    requires Voters(votes) == Ids(rp)[..j]
    ensures Voters(votes + [Ballot(rp[j].id, target)]) == Ids(rp)[..j + 1]
  {
  }

  /** When the first `j` round players have voted, in order, the next vote
      appends the current voter's ballot and nothing is dropped. */
  lemma VoteInTurn(s: State, target: string)
    requires ValidRoster(s.roundPlayers)
    requires s.voteIndex < |s.roundPlayers|
    requires Voters(s.votes) == Ids(s.roundPlayers)[..s.voteIndex]
    ensures CastVote(s, target).votes == s.votes + [Ballot(s.roundPlayers[s.voteIndex].id, target)]
    ensures Voters(CastVote(s, target).votes) == Ids(s.roundPlayers)[..s.voteIndex + 1]
  {
    var vi := s.voteIndex;
    var voter := s.roundPlayers[vi].id;
    assert voter !in Voters(s.votes) by {
      assert forall i :: 0 <= i < vi ==> Ids(s.roundPlayers)[i] != Ids(s.roundPlayers)[vi];
    }
    RemoveVoterAbsent(s.votes, voter);
    VotersExtend(s.votes, s.roundPlayers, vi, target);
  }

  /** Voting in turn from voter `j`: after `m` more votes the ballots are
      those of round players `j` to `j + m - 1`, appended in turn. */
  lemma {:induction false} VoteWalk(s: State, targets: seq<string>)
    requires ValidRoster(s.roundPlayers)
    requires s.voteIndex < |s.roundPlayers|
    requires Voters(s.votes) == Ids(s.roundPlayers)[..s.voteIndex]
    requires s.voteIndex + |targets| <= |s.roundPlayers|
    ensures CastVotes(s, targets).votes == s.votes + Turns(s.roundPlayers, s.voteIndex, targets)
    decreases |targets|
  {
    var rp, vi := s.roundPlayers, s.voteIndex;
    if targets == [] {
      assert Turns(rp, vi, targets) == [];
    } else {
      var b := Ballot(rp[vi].id, targets[0]);
      var s1 := CastVote(s, targets[0]);
      var r := CastVotes(s1, targets[1..]);
      assert CastVotes(s, targets) == r;
      assert s1.votes == s.votes + [b] && s1.roundPlayers == rp by {
        VoteInTurn(s, targets[0]);
      }
      if vi + 1 < |rp| {
        assert r.votes == (s.votes + [b]) + Turns(rp, vi + 1, targets[1..]) by {
          VoteInTurn(s, targets[0]);
          VoteWalk(s1, targets[1..]);
        }
        AppendTurn(s.votes, rp, vi, targets);
      } else {
        assert r == s1;
        assert Turns(rp, vi, targets) == [b];
      }
    }
  }

  /** Ballots in turn after those of the first `j` round players are the
      ballots of the first `j + m` round players. */
  lemma VotersOfTurns(votes: seq<Ballot>, rp: seq<Player>, j: nat, targets: seq<string>)
    requires j + |targets| <= |rp|
    requires Voters(votes) == Ids(rp)[..j]
    ensures Voters(votes + Turns(rp, j, targets)) == Ids(rp)[..j + |targets|]
  {
    var v := votes + Turns(rp, j, targets);
    forall i | 0 <= i < |v|
      ensures Voters(v)[i] == Ids(rp)[..j + |targets|][i]
    {
      if i < |votes| {
        assert v[i] == votes[i];
        assert Voters(votes)[i] == Ids(rp)[..j][i];
      } else {
        assert v[i] == Turns(rp, j, targets)[i - |votes|];
      }
    }
  }

  /** One ballot in turn followed by the later turns is all the turns. */
  lemma AppendTurn(votes: seq<Ballot>, rp: seq<Player>, j: nat, targets: seq<string>)
    requires |targets| > 0 && j + |targets| <= |rp|
    ensures (votes + [Ballot(rp[j].id, targets[0])]) + Turns(rp, j + 1, targets[1..])
            == votes + Turns(rp, j, targets)
  {
    TurnsCons(rp, j, targets);
  }

  /** Voting from voter `j`, `m` more votes keep the round players, leave the
      cursor on the next voter until the last one has voted, and then open
      the results. */
  lemma {:induction false} VoteCursor(s: State, targets: seq<string>)
    requires s.voteIndex < |s.roundPlayers|
    requires s.voteIndex + |targets| <= |s.roundPlayers|
    ensures CastVotes(s, targets).roundPlayers == s.roundPlayers
    ensures s.voteIndex + |targets| < |s.roundPlayers| ==>
              CastVotes(s, targets).voteIndex == s.voteIndex + |targets|
    ensures 0 < |targets| && s.voteIndex + |targets| < |s.roundPlayers| ==>
              CastVotes(s, targets).phase == VotePass
    ensures 0 < |targets| && s.voteIndex + |targets| == |s.roundPlayers| ==>
              CastVotes(s, targets).phase == Results
    decreases |targets|
  {
    if targets != [] {
      var s1 := CastVote(s, targets[0]);
      if s.voteIndex + 1 < |s.roundPlayers| {
        VoteCursor(s1, targets[1..]);
      } else {
        assert targets[1..] == [];
      }
    }
  }

  /** A whole voting round: from the first voter with no ballots, one vote
      per round player reaches the results with exactly one ballot per round
      player, cast in turn. */
  lemma FullVote(s: State, targets: seq<string>)
    requires ValidRoster(s.roundPlayers) && |s.roundPlayers| >= 1
    requires s.voteIndex == 0 && s.votes == []
    requires |targets| == |s.roundPlayers|
    ensures CastVotes(s, targets).phase == Results
    ensures Voters(CastVotes(s, targets).votes) == Ids(s.roundPlayers)
    ensures Distinct(Voters(CastVotes(s, targets).votes))
    ensures CastVotes(s, targets).votes == Turns(s.roundPlayers, 0, targets)
  {
    var rp, r := s.roundPlayers, CastVotes(s, targets);
    assert Voters(s.votes) == Ids(rp)[..0];
    VoteWalk(s, targets);
    assert s.votes + Turns(rp, 0, targets) == Turns(rp, 0, targets);
    VoteCursor(s, targets);
    VotersOfTurns(s.votes, rp, 0, targets);
    assert Ids(rp)[..|rp|] == Ids(rp);
    assert Voters(r.votes) == Ids(rp);
  }

  /** The ballot list of `vote_pick`: every round player except the current
      voter, in round order, then the skip entry. */
  function BallotOptions(s: State): (r: seq<Player>)
    requires s.voteIndex < |s.roundPlayers|
    ensures |r| >= 1 && r[|r| - 1] == Player(Skip, SkipLabel)
    ensures forall p :: p in r[..|r| - 1] <==> p in s.roundPlayers && p.id != s.roundPlayers[s.voteIndex].id
  {
    var others := RemovePlayer(s.roundPlayers, s.roundPlayers[s.voteIndex].id);
    var r := others + [Player(Skip, SkipLabel)];
    assert r[..|r| - 1] == others;
    r
  }

  /** With valid round players the ballot offers exactly the others, in
      round order, then skip: one entry per round player, never the voter
      themself. */
  lemma BallotOffersOthers(s: State)
    requires ValidRoster(s.roundPlayers)
    requires s.voteIndex < |s.roundPlayers|
    ensures var k := s.voteIndex;
            BallotOptions(s) == s.roundPlayers[..k] + s.roundPlayers[k + 1..] + [Player(Skip, SkipLabel)]
    ensures |BallotOptions(s)| == |s.roundPlayers|
    ensures s.roundPlayers[s.voteIndex].id !in Ids(BallotOptions(s))
  {
    var k := s.voteIndex;
    var rp := s.roundPlayers;
    RemoveFromValidRoster(rp, k);
    IdOnlyAt(rp, k);
    var r := BallotOptions(s);
    var a, b := rp[..k], rp[k + 1..];
    assert r == a + b + [Player(Skip, SkipLabel)];
    assert rp[k].id != Skip by {
      assert Ids(rp)[k] == rp[k].id;
    }
    forall i | 0 <= i < |r|
      ensures r[i].id != rp[k].id
    {
      if i < |a| {
        assert r[i] == a[i];
        assert Ids(a)[i] == a[i].id;
      } else if i < |a| + |b| {
        assert r[i] == b[i - |a|];
        assert Ids(b)[i - |a|] == b[i - |a|].id;
      }
    }
  }

  /** The back button with its confirmation: outside the title screen it
      returns to it, leaving every other field as it was; on the title
      screen the game does not handle it. */
  function BackConfirmed(s: State): (r: State)
    ensures r.phase == Home
    ensures r.(phase := s.phase) == s
  {
    if s.phase == Home then s else s.(phase := Home)
  }

  /** What the press-and-hold area shows. */
  datatype RevealView =
    | Hidden                    // "MANTÉN PRESIONADO"
    | ImpostorCard              // "IMPOSTOR", no word
    | CrewCard(secret: Option<Word>)  // "TRIPULACIÓN" with the word and category

  /** `currentPlayer`: `roundPlayers[revealIndex]`, absent when out of range. */
  function CurrentPlayer(s: State): (r: Option<Player>)
    ensures r.Some? <==> s.revealIndex < |s.roundPlayers|
    ensures r.Some? ==> r.value in s.roundPlayers && r.value == s.roundPlayers[s.revealIndex]
  {
    if s.revealIndex < |s.roundPlayers| then Some(s.roundPlayers[s.revealIndex]) else None
  }

  /** The reveal area of `reveal_secret`, given whether the area is being held. */
  function View(s: State, holding: bool): (v: RevealView)
    ensures !holding ==> v == Hidden
    ensures v.CrewCard? <==>
              holding && !(CurrentPlayer(s).Some? && CurrentPlayer(s).value.id == s.impostorId)
    ensures v.CrewCard? ==> v.secret == s.secret
    ensures holding && CurrentPlayer(s).Some? && CurrentPlayer(s).value.id == s.impostorId ==> v == ImpostorCard
  {
    var isImpostor := CurrentPlayer(s).Some? && CurrentPlayer(s).value.id == s.impostorId;
    if !holding then Hidden
    else if isImpostor then ImpostorCard
    else CrewCard(s.secret)
  }

  /** During a round the word is shown only while holding, never to the
      impostor, and to every other round player. */
  lemma ImpostorNeverSeesWord(s: State, holding: bool)
    requires s.revealIndex < |s.roundPlayers|
    ensures View(s, holding).CrewCard? <==> holding && s.roundPlayers[s.revealIndex].id != s.impostorId
    ensures s.roundPlayers[s.revealIndex].id == s.impostorId ==> View(s, holding) != CrewCard(s.secret)
  {
  }

  /** `roundPlayers.find((p) => p.id === impostorId)?.name`. */
  function FindName(ps: seq<Player>, id: string): (r: Option<string>)
    ensures r.None? <==> id !in Ids(ps)
    ensures r.Some? ==> Player(id, r.value) in ps
  {
    if ps == [] then None
    else if ps[0].id == id then Some(ps[0].name)
    else
      assert Ids(ps) == [ps[0].id] + Ids(ps[1..]);
      FindName(ps[1..], id)
  }

  /** In a valid roster the lookup finds the one player with that id. */
  lemma {:induction false} FindNameInValidRoster(ps: seq<Player>, k: int)
    requires ValidRoster(ps)
    requires 0 <= k < |ps|
    ensures FindName(ps, ps[k].id) == Some(ps[k].name)
  {
    var r := FindName(ps, ps[k].id);
    var j :| 0 <= j < |ps| && ps[j] == Player(ps[k].id, r.value);
    assert Ids(ps)[j] == Ids(ps)[k];
  }

  /** In a valid roster the lookup of an id names whichever player holds it. */
  lemma FindNameById(ps: seq<Player>, id: string)
    ensures ValidRoster(ps) ==>
              forall k :: 0 <= k < |ps| && ps[k].id == id ==> FindName(ps, id) == Some(ps[k].name)
  {
    if ValidRoster(ps) {
      forall k | 0 <= k < |ps| && ps[k].id == id {
        FindNameInValidRoster(ps, k);
      }
    }
  }

  /** The results screen: the decided outcome, the impostor's name and the
      secret word. */
  datatype ResultsScreen = ResultsScreen(outcome: Outcome, impostorName: Option<string>, word: Option<string>)

  function ShowResults(s: State): (r: ResultsScreen)
    ensures r.outcome == Decide(s.votes, s.impostorId)
    ensures r.impostorName.None? <==> s.impostorId !in Ids(s.roundPlayers)
    ensures r.impostorName.Some? ==> Player(s.impostorId, r.impostorName.value) in s.roundPlayers
    ensures ValidRoster(s.roundPlayers) ==>
              forall k :: 0 <= k < |s.roundPlayers| && s.roundPlayers[k].id == s.impostorId ==>
                r.impostorName == Some(s.roundPlayers[k].name)
    ensures r.word.Some? <==> s.secret.Some?
    ensures s.secret.Some? ==> r.word == Some(s.secret.value.word)
  {
    FindNameById(s.roundPlayers, s.impostorId);
    ResultsScreen(
      Decide(s.votes, s.impostorId),
      FindName(s.roundPlayers, s.impostorId),
      if s.secret.Some? then Some(s.secret.value.word) else None)
  }

  /** The discussion countdown's display: `max(0, ceil((endsAt - now) / 1000))`
      for instants in milliseconds. */
  function RemainingSeconds(endsAt: int, now: int): (r: nat)
    ensures endsAt <= now ==> r == 0
    ensures endsAt > now ==> (r - 1) * 1000 < endsAt - now <= r * 1000
  {
    var d := endsAt - now;
    if d <= 0 then 0 else (d + 999) / 1000
  }

  /** The end instant the "60s" and "120s" buttons set: one second more
      than the label, in milliseconds after `now`. */
  function TimerEnd(now: int, long: bool): (endsAt: int)
    ensures endsAt - now == (if long then 121000 else 61000)
  {
    now + (if long then 121000 else 61000)
  }

  /** The countdown a timer button starts: a tick of the 500 ms interval
      `elapsed` milliseconds after the press writes the label plus one, less
      the whole seconds gone, and 0 from the end instant on; so the first
      tick, half a second after the press, writes 61 (or 121). Until that
      tick the display keeps its earlier value. */
  lemma TimerCountdown(now: int, long: bool, elapsed: nat)
    ensures var total := if long then 121 else 61;
            RemainingSeconds(TimerEnd(now, long), now + elapsed)
              == if elapsed >= total * 1000 then 0 else total - elapsed / 1000
  {
    var total := if long then 121 else 61;
    var endsAt := TimerEnd(now, long);
    var r := RemainingSeconds(endsAt, now + elapsed);
    if elapsed < total * 1000 {
      var q := elapsed / 1000;
      assert q * 1000 <= elapsed < q * 1000 + 1000;
      assert (r - 1) * 1000 < total * 1000 - elapsed <= r * 1000;
      assert (total - q - 1) * 1000 < total * 1000 - elapsed <= (total - q) * 1000;
    }
  }
}

=== FILE: settings.dfy ===
/** The app settings: the state record, its defaults, the setters the
    settings screen calls, the merge of the persisted copy over the current
    state, and the translation lookup `t`. The string table is a parameter. */
module Settings {
  import opened Basics

  /** The languages of the string table (`Lang`). */
  const Languages: set<string> := {"es", "en"}

  /** The selectable backgrounds (`BackgroundId`). */
  const Backgrounds: set<string> := {"bg_home_image", "bg_chaos_gradient", "bg_midnight"}

  /** `SettingsState`. Language and background are plain strings because the
      persisted copy is merged in unchecked and may hold any value. */
  datatype SettingsState = SettingsState(
    language: string,
    musicEnabled: bool,
    musicVolume: real,
    backgroundId: string)

  /** `DEFAULTS`. */
  const Defaults := SettingsState("es", true, 0.6, "bg_home_image")

  /** Every field within what its type allows: a known language, a volume in
      `0..1`, a known background. */
  predicate WellFormed(s: SettingsState) {
    s.language in Languages && 0.0 <= s.musicVolume <= 1.0 && s.backgroundId in Backgrounds
  }

  lemma DefaultsWellFormed()
    ensures WellFormed(Defaults)
    ensures Defaults.language == "es" && Defaults.musicEnabled && Defaults.musicVolume == 0.6
  {
  }

  /** `setLanguage`. */
  function SetLanguage(p: SettingsState, language: string): (r: SettingsState)
    requires language in Languages
    ensures r.language == language
    ensures r.(language := p.language) == p
    ensures WellFormed(p) ==> WellFormed(r)
  {
    p.(language := language)
  }

  /** `setMusicEnabled`. */
  function SetMusicEnabled(p: SettingsState, musicEnabled: bool): (r: SettingsState)
    ensures r.musicEnabled == musicEnabled
    ensures r.(musicEnabled := p.musicEnabled) == p
    ensures WellFormed(p) ==> WellFormed(r)
  {
    p.(musicEnabled := musicEnabled)
  }

  /** `Math.max(0, Math.min(1, v))`. */
  function Clamp(v: real): (r: real)
    ensures 0.0 <= r <= 1.0
    ensures 0.0 <= v <= 1.0 ==> r == v
    ensures v < 0.0 ==> r == 0.0
    ensures v > 1.0 ==> r == 1.0
  {
    var m := if v < 1.0 then v else 1.0;
    if m > 0.0 then m else 0.0
  }

  /** Clamping twice is clamping once, and clamping keeps the order of volumes. */
  lemma ClampIdempotentMonotone(v: real, w: real)
    ensures Clamp(Clamp(v)) == Clamp(v)
    ensures v <= w ==> Clamp(v) <= Clamp(w)
  {
  }

  /** `setMusicVolume`: the volume is clamped into `0..1`. */
  function SetMusicVolume(p: SettingsState, musicVolume: real): (r: SettingsState)
    ensures r.musicVolume == Clamp(musicVolume)
    ensures 0.0 <= r.musicVolume <= 1.0
    ensures r.(musicVolume := p.musicVolume) == p
    ensures WellFormed(p) ==> WellFormed(r)
  {
    p.(musicVolume := Clamp(musicVolume))
  }

  /** `setBackgroundId`. */
  function SetBackgroundId(p: SettingsState, backgroundId: string): (r: SettingsState)
    requires backgroundId in Backgrounds
    ensures r.backgroundId == backgroundId
    ensures r.(backgroundId := p.backgroundId) == p
    ensures WellFormed(p) ==> WellFormed(r)
  {
    p.(backgroundId := backgroundId)
  }

  /** The setters write different fields, so they commute, and a second
      write to a field replaces the first. */
  lemma SettersCommute(p: SettingsState, l: string, e: bool, v: real, b: string, l2: string)
    requires l in Languages && l2 in Languages && b in Backgrounds
    ensures SetMusicVolume(SetLanguage(p, l), v) == SetLanguage(SetMusicVolume(p, v), l)
    ensures SetMusicEnabled(SetBackgroundId(p, b), e) == SetBackgroundId(SetMusicEnabled(p, e), b)
    ensures SetLanguage(SetLanguage(p, l), l2) == SetLanguage(p, l2)
    ensures SetMusicVolume(SetMusicVolume(p, v), v) == SetMusicVolume(p, v)
  {
    var a := SetMusicVolume(SetLanguage(p, l), v);
    var c := SetLanguage(SetMusicVolume(p, v), l);
    assert a.language == c.language && a.musicVolume == c.musicVolume;
  }

  /** The parsed persisted object, `Partial<SettingsState>`: each field
      present or absent. */
  datatype Partial = Partial(
    language: Option<string>,
    musicEnabled: Option<bool>,
    musicVolume: Option<real>,
    backgroundId: Option<string>)

  /** `{ ...prev, ...parsed }`: each field of `parsed` that is present
      replaces the one of `prev`. Nothing is checked or clamped. */
  function Merge(prev: SettingsState, parsed: Partial): (r: SettingsState)
    ensures parsed.language.Some? ==> r.language == parsed.language.value
    ensures parsed.language.None? ==> r.language == prev.language
    ensures parsed.musicEnabled.Some? ==> r.musicEnabled == parsed.musicEnabled.value
    ensures parsed.musicEnabled.None? ==> r.musicEnabled == prev.musicEnabled
    ensures parsed.musicVolume.Some? ==> r.musicVolume == parsed.musicVolume.value
    ensures parsed.musicVolume.None? ==> r.musicVolume == prev.musicVolume
    ensures parsed.backgroundId.Some? ==> r.backgroundId == parsed.backgroundId.value
    ensures parsed.backgroundId.None? ==> r.backgroundId == prev.backgroundId
  {
    SettingsState(
      if parsed.language.Some? then parsed.language.value else prev.language,
      if parsed.musicEnabled.Some? then parsed.musicEnabled.value else prev.musicEnabled,
      if parsed.musicVolume.Some? then parsed.musicVolume.value else prev.musicVolume,
      if parsed.backgroundId.Some? then parsed.backgroundId.value else prev.backgroundId)
  }

  /** The object `JSON.stringify(state)` persists, every field present. */
  function Saved(s: SettingsState): (p: Partial)
    ensures p.language.Some? && p.musicEnabled.Some? && p.musicVolume.Some? && p.backgroundId.Some?
  {
    Partial(Some(s.language), Some(s.musicEnabled), Some(s.musicVolume), Some(s.backgroundId))
  }

  /** Persisting and loading back restores the state, over any previous
      state; an empty object changes nothing; merging the same object twice
      is merging it once. */
  lemma MergeLaws(prev: SettingsState, s: SettingsState, parsed: Partial)
    ensures Merge(prev, Saved(s)) == s
    ensures Merge(prev, Partial(None, None, None, None)) == prev
    ensures Merge(Merge(prev, parsed), parsed) == Merge(prev, parsed)
  {
  }

  /** The persisted object's fields are each within what the state allows. */
  predicate PartialWellFormed(p: Partial) {
    && (p.language.Some? ==> p.language.value in Languages)
    && (p.musicVolume.Some? ==> 0.0 <= p.musicVolume.value <= 1.0)
    && (p.backgroundId.Some? ==> p.backgroundId.value in Backgrounds)
  }

  /** A well-formed object merged over a well-formed state keeps it well
      formed; but the merge checks nothing, so a stored volume of 2 is
      loaded as 2 and an unknown language or background is loaded as is. */
  lemma MergeChecksNothing(prev: SettingsState, parsed: Partial)
    ensures WellFormed(prev) && PartialWellFormed(parsed) ==> WellFormed(Merge(prev, parsed))
    ensures Merge(Defaults, Partial(None, None, Some(2.0), None)).musicVolume == 2.0
    ensures !WellFormed(Merge(Defaults, Partial(Some("fr"), None, None, None)))
  {
  }

  /** `t(key)`: `STRINGS[language]?.[key] ?? STRINGS.es[key] ?? key`. The
      Spanish table always exists. */
  function T(strings: map<string, map<string, string>>, language: string, key: string): (r: string)
    requires "es" in strings
    ensures language in strings && key in strings[language] ==> r == strings[language][key]
    ensures r == key || (language in strings && key in strings[language] && r == strings[language][key])
                     || (key in strings["es"] && r == strings["es"][key])
  {
    if language in strings && key in strings[language] then strings[language][key]
    else if key in strings["es"] then strings["es"][key]
    else key
  }

  /** A language the table lacks (a persisted unknown one) reads as
      Spanish; a key no table has reads as itself; a key only the Spanish
      table has falls back to Spanish. */
  lemma TFallbacks(strings: map<string, map<string, string>>, language: string, key: string)
    requires "es" in strings
    ensures language !in strings ==> T(strings, language, key) == T(strings, "es", key)
    ensures key !in strings["es"] && (language !in strings || key !in strings[language]) ==>
              T(strings, language, key) == key
    ensures key in strings["es"] && (language !in strings || key !in strings[language]) ==>
              T(strings, language, key) == strings["es"][key]
  {
  }
}

=== FILE: shuffle.dfy ===
/** The Fisher–Yates shuffle of the Impostor game, with its random choices
    supplied by the caller: at the step for position `i` (running from the
    last position down to 1) the game draws `j` uniformly from `0..i`;
    here that `j` is `js[i]`. */
module Shuffle {
  import opened Basics

  /** `js` is a legal sequence of draws for a list of `n` elements: one entry
      per position, the entry for position `i` at most `i`. The entry for
      position 0 is never used by the loop. */
  predicate ValidDraws(js: seq<nat>, n: nat) {
    |js| == n && forall i :: 0 <= i < |js| ==> js[i] <= i
  }

  /** `[a[i], a[j]] = [a[j], a[i]]`. */
  function Swap<T>(a: seq<T>, i: nat, j: nat): (r: seq<T>)
    requires i < |a| && j < |a|
    ensures |r| == |a|
    ensures r[i] == a[j] && r[j] == a[i]
    ensures forall k :: 0 <= k < |a| && k != i && k != j ==> r[k] == a[k]
  {
    if i == j then a else a[i := a[j]][j := a[i]]
  }

  /** A swap keeps the elements and their multiplicities. */
  lemma {:induction false} SwapPermutes<T>(a: seq<T>, i: nat, j: nat)
    requires i < |a| && j < |a|
    ensures multiset(Swap(a, i, j)) == multiset(a)
    ensures Distinct(a) ==> Distinct(Swap(a, i, j))
  {
    var r := Swap(a, i, j);
    if i != j {
      assert r == a[i := a[j]][j := a[i]];
    }
    if Distinct(a) {
      forall x, y | 0 <= x < y < |r|
        ensures r[x] != r[y]
      {
        var x' := if x == i then j else if x == j then i else x;
        var y' := if y == i then j else if y == j then i else y;
        assert r[x] == a[x'] && r[y] == a[y'];
      }
    }
  }

  /** The loop body run for positions `i`, `i - 1`, ..., 1. */
  function ShuffleDown<T>(a: seq<T>, js: seq<nat>, i: int): (r: seq<T>)
    requires ValidDraws(js, |a|)
    requires -1 <= i < |a|
    ensures |r| == |a|
    ensures forall k :: i < k < |a| ==> r[k] == a[k]
    decreases i
  {
    if i <= 0 then a
    else ShuffleDown(Swap(a, i, js[i]), js, i - 1)
  }

  /** Each step only swaps, so the loop keeps the elements and their
      multiplicities. */
  lemma {:induction false} ShuffleDownPermutes<T>(a: seq<T>, js: seq<nat>, i: int)
    requires ValidDraws(js, |a|)
    requires -1 <= i < |a|
    ensures multiset(ShuffleDown(a, js, i)) == multiset(a)
    decreases i
  {
    if i > 0 {
      SwapPermutes(a, i, js[i]);
      ShuffleDownPermutes(Swap(a, i, js[i]), js, i - 1);
    }
  }

  /** ... and so it keeps the elements pairwise different. */
  lemma {:induction false} ShuffleDownDistinct<T>(a: seq<T>, js: seq<nat>, i: int)
    requires ValidDraws(js, |a|)
    requires -1 <= i < |a|
    ensures Distinct(a) ==> Distinct(ShuffleDown(a, js, i))
    decreases i
  {
    if i > 0 && Distinct(a) {
      SwapPermutes(a, i, js[i]);
      ShuffleDownDistinct(Swap(a, i, js[i]), js, i - 1);
    }
  }

  /** `shuffle(arr)`: a shuffled copy of `a`. The argument is
      copied first, and sequences are values here, so `a` itself is never
      changed. */
  function Shuffle<T(!new)>(a: seq<T>, js: seq<nat>): (r: seq<T>)
    requires ValidDraws(js, |a|)
    ensures |r| == |a|
    ensures multiset(r) == multiset(a)
    ensures forall x :: x in r <==> x in a
    ensures Distinct(a) ==> Distinct(r)
  {
    var r := ShuffleDown(a, js, |a| - 1);
    ShuffleDownPermutes(a, js, |a| - 1);
    ShuffleDownDistinct(a, js, |a| - 1);
    assert forall x :: x in r <==> x in multiset(r);
    assert forall x :: x in a <==> x in multiset(a);
    r
  }

  /** Draws that always pick the current position swap nothing: the
      shuffle is then the identity. */
  lemma {:induction false} ShuffleDownIdentity<T>(a: seq<T>, js: seq<nat>, i: int)
    requires ValidDraws(js, |a|)
    requires -1 <= i < |a|
    requires forall k :: 0 <= k < |js| ==> js[k] == k
    ensures ShuffleDown(a, js, i) == a
    decreases i
  {
    if i > 0 {
      assert Swap(a, i, js[i]) == a;
      ShuffleDownIdentity(a, js, i - 1);
    }
  }

  /** The first draw decides the last position: whatever the later draws,
      the element at position `js[n - 1]` ends up last, so every element can. */
  lemma {:induction false} LastDrawPicksLast<T(!new)>(a: seq<T>, js: seq<nat>)
    requires ValidDraws(js, |a|)
    requires |a| >= 2
    ensures Shuffle(a, js)[|a| - 1] == a[js[|a| - 1]]
  {
    var n := |a|;
    var b := Swap(a, n - 1, js[n - 1]);
    assert ShuffleDown(a, js, n - 1) == ShuffleDown(b, js, n - 2);
    assert ShuffleDown(b, js, n - 2)[n - 1] == b[n - 1];
  }
}

=== FILE: text.dfy ===
/** Player-name normalisation of the Impostor game: JavaScript's `trim`,
    the `/\s+/g` whitespace collapse and the `slice(0, 18)` cut. Characters
    are Dafny `char`s (Unicode scalar values). */
module Text {

  /** Maximum length a sanitised name is cut to. */
  const MaxNameLength: nat := 18

  /** The characters that JavaScript's `trim` removes and `\s` matches:
      the ECMAScript WhiteSpace and LineTerminator code points. */
  predicate IsSpace(c: char) {
    || c == '\t' || c == '\n' || c == '\U{000B}' || c == '\U{000C}' || c == '\r'
    || c == ' ' || c == '\U{00A0}' || c == '\U{1680}'
    || ('\U{2000}' <= c <= '\U{200A}')
    || c == '\U{2028}' || c == '\U{2029}' || c == '\U{202F}' || c == '\U{205F}'
    || c == '\U{3000}' || c == '\U{FEFF}'
  }

  predicate AllSpace(s: string) {
    forall i :: 0 <= i < |s| ==> IsSpace(s[i])
  }

  /** No two whitespace characters stand next to each other. */
  predicate NoDoubleSpace(s: string) {
    forall i :: 0 <= i < |s| - 1 ==> !(IsSpace(s[i]) && IsSpace(s[i + 1]))
  }

  /** The only whitespace character that occurs is the plain space. */
  predicate OnlyPlainSpaces(s: string) {
    forall i :: 0 <= i < |s| ==> IsSpace(s[i]) ==> s[i] == ' '
  }

  /** The visible characters of `s`, in order: `s` with every whitespace character removed. */
  function Visible(s: string): (r: string)
    ensures |r| <= |s|
    ensures forall i :: 0 <= i < |r| ==> !IsSpace(r[i])
  {
    if s == [] then []
    else if IsSpace(s[0]) then Visible(s[1..])
    else [s[0]] + Visible(s[1..])
  }

  lemma {:induction false} VisibleAppend(a: string, b: string)
    ensures Visible(a + b) == Visible(a) + Visible(b)
  {
    if a == [] {
      assert a + b == b;
    } else {
      assert (a + b)[1..] == a[1..] + b;
      VisibleAppend(a[1..], b);
    }
  }

  lemma {:induction false} VisibleOfSpaces(s: string)
    requires AllSpace(s)
    ensures Visible(s) == []
  {
    if s != [] {
      VisibleOfSpaces(s[1..]);
    }
  }

  /** How many whitespace characters `s` starts with. */
  function LeadingSpaces(s: string): (k: nat)
    ensures k <= |s|
    ensures forall i :: 0 <= i < k ==> IsSpace(s[i])
    ensures k < |s| ==> !IsSpace(s[k])
  {
    if s == [] || !IsSpace(s[0]) then 0
    else
      var k := LeadingSpaces(s[1..]);
      assert forall i :: 1 <= i < k + 1 ==> s[i] == s[1..][i - 1];
      k + 1
  }

  /** Where the trailing whitespace run of `s` begins. */
  function TrailingStart(s: string): (k: nat)
    ensures k <= |s|
    ensures forall i :: k <= i < |s| ==> IsSpace(s[i])
    ensures 0 < k ==> !IsSpace(s[k - 1])
  {
    if s == [] || !IsSpace(s[|s| - 1]) then |s|
    else
      var p := s[..|s| - 1];
      var k := TrailingStart(p);
      assert forall i :: k <= i < |p| ==> s[i] == p[i];
      k
  }

  /** JavaScript's `String.prototype.trim`. */
  function Trim(s: string): (r: string)
    ensures r == [] || (!IsSpace(r[0]) && !IsSpace(r[|r| - 1]))
  {
    var a := LeadingSpaces(s);
    var m := s[a..];
    var b := TrailingStart(m);
    assert b > 0 ==> m[0] == s[a];
    m[..b]
  }

  /** The whitespace run `Trim` removes from the front of `s`. */
  function TrimmedHead(s: string): string {
    s[..LeadingSpaces(s)]
  }

  /** The whitespace run `Trim` removes from the back of `s`. */
  function TrimmedTail(s: string): string {
    var m := s[LeadingSpaces(s)..];
    m[TrailingStart(m)..]
  }

  /** Cutting a sequence at `k` and its remainder at `j` gives back the sequence. */
  lemma Cut3(s: string, k: nat, j: nat)
    requires k <= |s| && j <= |s| - k
    ensures s == s[..k] + s[k..][..j] + s[k..][j..]
  {
    assert s[k..] == s[k..][..j] + s[k..][j..];
    assert s == s[..k] + s[k..];
  }

  /** `Trim` removes whitespace only: `s` is its trimmed form between the
      removed head and tail, both of them whitespace. */
  lemma TrimParts(s: string)
    ensures s == TrimmedHead(s) + Trim(s) + TrimmedTail(s)
    ensures AllSpace(TrimmedHead(s)) && AllSpace(TrimmedTail(s))
  {
    var k := LeadingSpaces(s);
    var m := s[k..];
    Cut3(s, k, TrailingStart(m));
  }

  /** What `Trim` removes is whitespace only: `s` is the result with a
      whitespace run before it and one after it. */
  lemma TrimSpec(s: string)
    ensures exists a, b :: AllSpace(a) && AllSpace(b) && s == a + Trim(s) + b
  {
    TrimParts(s);
    var a, b := TrimmedHead(s), TrimmedTail(s);
    assert AllSpace(a) && AllSpace(b) && s == a + Trim(s) + b;
  }

  /** `s` without its leading whitespace run (one step of the collapse). */
  function DropSpaces(s: string): (r: string)
    ensures |r| <= |s|
    ensures r == [] || !IsSpace(r[0])
  {
    s[LeadingSpaces(s)..]
  }

  /** `s.replace(/\s+/g, " ")`: every maximal whitespace run becomes one space. */
  function Collapse(s: string): (r: string)
    ensures |r| <= |s|
    ensures NoDoubleSpace(r)
    ensures OnlyPlainSpaces(r)
    ensures s != [] && !IsSpace(s[0]) ==> r != [] && r[0] == s[0]
    ensures s != [] && IsSpace(s[0]) ==> r != [] && r[0] == ' '
    decreases |s|
  {
    if s == [] then []
    else if IsSpace(s[0]) then
      var rest := DropSpaces(s[1..]);
      var t := Collapse(rest);
      var r := [' '] + t;
      assert forall i :: 1 <= i < |r| ==> r[i] == t[i - 1];
      r
    else
      var t := Collapse(s[1..]);
      var r := [s[0]] + t;
      assert forall i :: 1 <= i < |r| ==> r[i] == t[i - 1];
      r
  }

  /** Collapsing whitespace keeps every visible character, in order. */
  lemma {:induction false} CollapseKeepsVisible(s: string)
    ensures Visible(Collapse(s)) == Visible(s)
    decreases |s|
  {
    if s == [] {
    } else if IsSpace(s[0]) {
      var rest := DropSpaces(s[1..]);
      var k := LeadingSpaces(s[1..]);
      assert AllSpace(s[1..][..k]);
      CollapseKeepsVisible(rest);
      VisibleOfSpaces(s[1..][..k]);
      assert s[1..] == s[1..][..k] + rest;
      VisibleAppend(s[1..][..k], rest);
      assert ([' '] + Collapse(rest))[1..] == Collapse(rest);
    } else {
      CollapseKeepsVisible(s[1..]);
      assert ([s[0]] + Collapse(s[1..]))[1..] == Collapse(s[1..]);
    }
  }

  /** A string of whitespace only starts with all of it. */
  lemma {:induction false} LeadingSpacesOfSpaces(s: string)
    requires AllSpace(s)
    ensures LeadingSpaces(s) == |s|
    decreases |s|
  {
    if s != [] {
      LeadingSpacesOfSpaces(s[1..]);
    }
  }

  /** The leading whitespace run of `x + y` is that of `x` when `x` has a
      visible character, and all of `x` when `x` is whitespace and `y`
      does not start with whitespace. */
  lemma {:induction false} LeadingSpacesAppend(x: string, y: string)
    requires LeadingSpaces(x) < |x| || (AllSpace(x) && (y == [] || !IsSpace(y[0])))
    ensures LeadingSpaces(x + y) == if LeadingSpaces(x) < |x| then LeadingSpaces(x) else |x|
    decreases |x|
  {
    if x == [] {
      assert x + y == y;
    } else if IsSpace(x[0]) {
      assert (x + y)[1..] == x[1..] + y;
      if LeadingSpaces(x) < |x| {
        LeadingSpacesAppend(x[1..], y);
      } else {
        LeadingSpacesOfSpaces(x);
        LeadingSpacesAppend(x[1..], y);
      }
    }
  }

  /** A non-empty run of whitespace collapses to exactly one plain space. */
  lemma CollapseSpaces(s: string)
    requires s != [] && AllSpace(s)
    ensures Collapse(s) == " "
  {
    LeadingSpacesOfSpaces(s[1..]);
    assert DropSpaces(s[1..]) == [];
  }

  lemma ConsAppend(c: char, v: string, w: string)
    ensures [c] + (v + w) == ([c] + v) + w
  {
  }

  /** One step of the collapse at a visible first character. */
  lemma CollapseVisibleHead(s: string)
    requires s != [] && !IsSpace(s[0])
    ensures Collapse(s) == [s[0]] + Collapse(s[1..])
  {
  }

  /** One step of the collapse at a whitespace first character. */
  lemma CollapseSpaceHead(s: string)
    requires s != [] && IsSpace(s[0])
    ensures Collapse(s) == [' '] + Collapse(DropSpaces(s[1..]))
  {
  }

  /** The collapse works run by run: cutting `s` anywhere but inside a
      whitespace run and collapsing the two parts gives the collapse of `s`.
      With `CollapseSpaces` and the identity on visible characters, this
      says each run becomes exactly one space and nothing else changes. */
  lemma {:induction false} CollapseAppend(a: string, b: string)
    requires a == [] || b == [] || !IsSpace(a[|a| - 1]) || !IsSpace(b[0])
    ensures Collapse(a + b) == Collapse(a) + Collapse(b)
    decreases |a|, 2
  {
    if a == [] {
      assert a + b == b;
    } else if !IsSpace(a[0]) {
      CollapseAppendVisible(a, b);
    } else {
      CollapseAppendSpace(a, b);
    }
  }

  /** `CollapseAppend` when `a` starts with a visible character. */
  lemma {:induction false} CollapseAppendVisible(a: string, b: string)
    requires a != [] && !IsSpace(a[0])
    requires b == [] || !IsSpace(a[|a| - 1]) || !IsSpace(b[0])
    ensures Collapse(a + b) == Collapse(a) + Collapse(b)
    decreases |a|, 1
  {
    var v := Collapse(a[1..]);
    assert Collapse(a + b) == [a[0]] + Collapse(a[1..] + b) by {
      assert (a + b)[1..] == a[1..] + b;
      CollapseVisibleHead(a + b);
    }
    assert Collapse(a) == [a[0]] + v by {
      CollapseVisibleHead(a);
    }
    CollapseAppend(a[1..], b);
    ConsAppend(a[0], v, Collapse(b));
  }

  /** `CollapseAppend` when `a` starts with whitespace. */
  lemma {:induction false} CollapseAppendSpace(a: string, b: string)
    requires a != [] && IsSpace(a[0])
    requires b == [] || !IsSpace(a[|a| - 1]) || !IsSpace(b[0])
    ensures Collapse(a + b) == Collapse(a) + Collapse(b)
    decreases |a|, 1
  {
    var u := Collapse(DropSpaces((a + b)[1..]));
    var v := Collapse(DropSpaces(a[1..]));
    assert Collapse(a + b) == [' '] + u && Collapse(a) == [' '] + v by {
      CollapseSpaceHead(a);
      CollapseSpaceHead(a + b);
    }
    assert u == v + Collapse(b) by {
      if LeadingSpaces(a[1..]) < |a[1..]| {
        CollapseAppendSpaceHeadRun(a, b);
      } else {
        CollapseAppendSpaceOnly(a, b);
      }
    }
    ConsAppend(' ', v, Collapse(b));
  }

  /** `CollapseAppendSpace` when `a` is whitespace only. */
  lemma CollapseAppendSpaceOnly(a: string, b: string)
    requires a != [] && IsSpace(a[0]) && LeadingSpaces(a[1..]) == |a[1..]|
    requires b == [] || !IsSpace(a[|a| - 1]) || !IsSpace(b[0])
    ensures DropSpaces((a + b)[1..]) == b && DropSpaces(a[1..]) == []
  {
    var x := a[1..];
    assert (a + b)[1..] == x + b;
    assert AllSpace(x);
    LeadingSpacesAppend(x, b);
    assert (x + b)[|x|..] == b;
  }

  /** `CollapseAppendSpace` when the leading run of `a` is followed by a
      visible character of `a`. */
  lemma {:induction false} CollapseAppendSpaceHeadRun(a: string, b: string)
    requires a != [] && IsSpace(a[0]) && LeadingSpaces(a[1..]) < |a[1..]|
    requires b == [] || !IsSpace(a[|a| - 1]) || !IsSpace(b[0])
    ensures Collapse(DropSpaces((a + b)[1..])) == Collapse(DropSpaces(a[1..])) + Collapse(b)
    decreases |a|, 0
  {
    var x := a[1..];
    var k := LeadingSpaces(x);
    var rest := x[k..];
    assert (a + b)[1..] == x + b;
    LeadingSpacesAppend(x, b);
    assert (x + b)[k..] == rest + b;
    assert rest[|rest| - 1] == a[|a| - 1];
    CollapseAppend(rest, b);
  }

  /** `s.slice(0, n)`. */
  function Take(s: string, n: nat): (r: string)
    ensures |r| <= n && r <= s
    ensures |s| <= n ==> r == s
    ensures |s| > n ==> |r| == n
  {
    if |s| <= n then s else s[..n]
  }

  /** `sanitizeName`: trim, collapse whitespace runs to one space, cut to 18 characters. */
  function SanitizeName(s: string): (r: string)
    ensures |r| <= MaxNameLength
    ensures r == [] || !IsSpace(r[0])
    ensures NoDoubleSpace(r)
    ensures OnlyPlainSpaces(r)
    ensures r <= Collapse(Trim(s))
    ensures |Collapse(Trim(s))| >= MaxNameLength ==> |r| == MaxNameLength
  {
    var t := Trim(s);
    var c := Collapse(t);
    var r := Take(c, MaxNameLength);
    assert forall i :: 0 <= i < |r| ==> r[i] == c[i];
    r
  }

  /** Every visible character the name keeps comes from the input in order:
      the visible characters of the result are a prefix of those of the input,
      and when nothing is cut they are all of them. */
  lemma SanitizeKeepsVisible(s: string)
    ensures Visible(SanitizeName(s)) <= Visible(s)
    ensures |Collapse(Trim(s))| <= MaxNameLength ==> Visible(SanitizeName(s)) == Visible(s)
  {
    var c := Collapse(Trim(s));
    TrimKeepsVisible(s);
    CollapseKeepsVisible(Trim(s));
    TakeKeepsVisiblePrefix(c, MaxNameLength);
  }

  /** Trimming removes no visible character. */
  lemma TrimKeepsVisible(s: string)
    ensures Visible(Trim(s)) == Visible(s)
  {
    var a, t, b := TrimmedHead(s), Trim(s), TrimmedTail(s);
    TrimParts(s);
    VisibleAppend(a + t, b);
    VisibleAppend(a, t);
    VisibleOfSpaces(a);
    VisibleOfSpaces(b);
  }

  /** A cut keeps a prefix of the visible characters. */
  lemma TakeKeepsVisiblePrefix(c: string, n: nat)
    ensures Visible(Take(c, n)) <= Visible(c)
  {
    var r := Take(c, n);
    assert c == r + c[|r|..];
    VisibleAppend(r, c[|r|..]);
  }

  /** The cut to 18 characters can leave a trailing space: whenever the
      collapsed name is longer than 18 and its 18th character is the space,
      sanitising the sanitised name shortens it again. */
  lemma SanitizeNotIdempotent(s: string)
    requires |Collapse(Trim(s))| > MaxNameLength
    requires Collapse(Trim(s))[MaxNameLength - 1] == ' '
    ensures |SanitizeName(s)| == MaxNameLength
    ensures SanitizeName(SanitizeName(s)) != SanitizeName(s)
  {
    var once := SanitizeName(s);
    assert once == Collapse(Trim(s))[..MaxNameLength];
    assert IsSpace(once[|once| - 1]);
    var k := LeadingSpaces(once);
    var m := once[k..];
    assert |m| > 0 ==> IsSpace(m[|m| - 1]);
    assert |Trim(once)| < |once|;
  }
}

=== FILE: votes.dfy ===
/** The results screen of the Impostor game: the tally of the ballots into a
    JavaScript `Map` (whose iteration order is the order in which each target
    first receives a vote), the scan for the most-voted target, and the
    heading the screen shows. */
module Votes {
  import opened Basics

  /** The id that stands for "Salvar / No sé" on the ballot. */
  const Skip: string := "skip"

  /** `VoteChoice`: who voted, and for whom (a player id or `Skip`). */
  datatype Ballot = Ballot(voterId: string, targetId: string)

  /** One entry of the tally map. */
  datatype Entry = Entry(target: string, count: nat)

  /** The targets of the ballots, in ballot order. */
  function Targets(votes: seq<Ballot>): (r: seq<string>)
    ensures |r| == |votes|
    ensures forall i :: 0 <= i < |votes| ==> r[i] == votes[i].targetId
  {
    if votes == [] then [] else Targets(votes[..|votes| - 1]) + [votes[|votes| - 1].targetId]
  }

  /** How many ballots name `t`. */
  function Count(votes: seq<Ballot>, t: string): nat {
    if votes == [] then 0
    else Count(votes[..|votes| - 1], t) + (if votes[|votes| - 1].targetId == t then 1 else 0)
  }

  /** The distinct elements of `s` in order of first occurrence: the
      reference order a tally must follow. */
  function FirstOccurrences(s: seq<string>): (r: seq<string>)
    ensures forall x :: x in r <==> x in s
    ensures Distinct(r)
  {
    if s == [] then []
    else
      var d := FirstOccurrences(s[..|s| - 1]);
      assert forall x :: x in s <==> x in s[..|s| - 1] || x == s[|s| - 1];
      if s[|s| - 1] in d then d
      else
        DistinctSnoc(d, s[|s| - 1]);
        d + [s[|s| - 1]]
  }

  /** The distinct elements come in the order of their first occurrences. */
  lemma {:induction false} FirstOccurrencesOrdered(s: seq<string>)
    ensures forall i, j :: 0 <= i < j < |FirstOccurrences(s)| ==>
              Position(s, FirstOccurrences(s)[i]) < Position(s, FirstOccurrences(s)[j])
    decreases |s|
  {
    if s != [] {
      var p, x := s[..|s| - 1], s[|s| - 1];
      assert s == p + [x];
      var d := FirstOccurrences(p);
      var r := FirstOccurrences(s);
      assert r == if x in d then d else d + [x];
      FirstOccurrencesOrdered(p);
      forall i, j | 0 <= i < j < |r|
        ensures Position(s, r[i]) < Position(s, r[j])
      {
        assert r[i] == d[i] && d[i] in p;
        PositionSnoc(p, x, r[i]);
        PositionSnoc(p, x, r[j]);
        if j < |d| {
          assert r[j] == d[j] && d[j] in p;
        } else {
          assert r[j] == x && x !in p;
        }
      }
    }
  }

  /** The keys of the tally, in iteration order. */
  function Keys(tally: seq<Entry>): (r: seq<string>)
    ensures |r| == |tally|
    ensures forall i :: 0 <= i < |tally| ==> r[i] == tally[i].target
  {
    seq(|tally|, i requires 0 <= i < |tally| => tally[i].target)
  }

  predicate DistinctKeys(tally: seq<Entry>) {
    forall i, j :: 0 <= i < j < |tally| ==> tally[i].target != tally[j].target
  }

  /** `voteMap.set(t, (voteMap.get(t) || 0) + 1)`: an existing key keeps its
      place and gains one vote; a new key goes last with one vote. */
  function Bump(tally: seq<Entry>, t: string): (r: seq<Entry>)
    requires DistinctKeys(tally)
    ensures DistinctKeys(r)
    ensures Keys(r) == if t in Keys(tally) then Keys(tally) else Keys(tally) + [t]
    ensures t !in Keys(tally) ==> r == tally + [Entry(t, 1)]
    ensures forall i :: 0 <= i < |tally| ==>
              r[i].count == tally[i].count + (if tally[i].target == t then 1 else 0)
  {
    if t in Keys(tally) then
      var k := Position(Keys(tally), t);
      var r := tally[k := Entry(t, tally[k].count + 1)];
      assert forall i :: 0 <= i < |r| ==> r[i].target == tally[i].target;
      assert Keys(r) == Keys(tally);
      r
    else
      var r := tally + [Entry(t, 1)];
      assert Keys(r) == Keys(tally) + [t];
      r
  }

  /** The tally map of `votes`, in the map's iteration order. */
  function Tally(votes: seq<Ballot>): (r: seq<Entry>)
    ensures DistinctKeys(r)
  {
    if votes == [] then [] else Bump(Tally(votes[..|votes| - 1]), votes[|votes| - 1].targetId)
  }

  /** The tally's keys are the voted-for targets in order of their first ballot. */
  lemma {:induction false} TallyOrder(votes: seq<Ballot>)
    ensures Keys(Tally(votes)) == FirstOccurrences(Targets(votes))
  {
    if votes != [] {
      var p := votes[..|votes| - 1];
      TallyOrder(p);
      assert Targets(votes)[..|votes| - 1] == Targets(p);
    }
  }

  /** Each tally entry counts exactly the ballots naming its target, and the
      targets with an entry are exactly those somebody voted for. */
  lemma TallyCounts(votes: seq<Ballot>)
    ensures forall i :: 0 <= i < |Tally(votes)| ==>
              Tally(votes)[i].count == Count(votes, Tally(votes)[i].target)
    ensures forall t :: t in Keys(Tally(votes)) <==> Count(votes, t) > 0
  {
    TallyKeysVoted(votes);
    TallyEntryCounts(votes);
  }

  /** The targets with an entry are exactly those somebody voted for. */
  lemma {:induction false} TallyKeysVoted(votes: seq<Ballot>)
    ensures forall t :: t in Keys(Tally(votes)) <==> Count(votes, t) > 0
  {
    if votes != [] {
      var p := votes[..|votes| - 1];
      var t := votes[|votes| - 1].targetId;
      TallyKeysVoted(p);
      assert Tally(votes) == Bump(Tally(p), t);
      assert forall x :: Count(votes, x) == Count(p, x) + (if x == t then 1 else 0);
    }
  }

  /** Each tally entry counts exactly the ballots naming its target. */
  lemma {:induction false} TallyEntryCounts(votes: seq<Ballot>)
    ensures forall i :: 0 <= i < |Tally(votes)| ==>
              Tally(votes)[i].count == Count(votes, Tally(votes)[i].target)
  {
    if votes != [] {
      var p := votes[..|votes| - 1];
      var t := votes[|votes| - 1].targetId;
      TallyEntryCounts(p);
      TallyKeysVoted(p);
      var prev := Tally(p);
      var r := Tally(votes);
      assert r == Bump(prev, t);
      forall i | 0 <= i < |r|
        ensures r[i].count == Count(votes, r[i].target)
      {
        if i < |prev| {
          assert Keys(r)[i] == Keys(prev)[i];
        } else {
          assert r[i] == Entry(t, 1);
        }
      }
    }
  }

  /** The greatest count in a non-empty tally. */
  function MaxCount(tally: seq<Entry>): (m: nat)
    requires tally != []
    ensures forall i :: 0 <= i < |tally| ==> tally[i].count <= m
    ensures exists i :: 0 <= i < |tally| && tally[i].count == m
  {
    if |tally| == 1 then tally[0].count
    else
      var p := tally[..|tally| - 1];
      var m := MaxCount(p);
      assert forall i :: 0 <= i < |p| ==> tally[i] == p[i];
      if tally[|tally| - 1].count > m then tally[|tally| - 1].count else m
  }

  /** The maximum is reached by two different entries (so, with distinct
      keys, by two different targets). */
  predicate SharedMax(tally: seq<Entry>)
    requires tally != []
  {
    exists i, j :: 0 <= i < j < |tally| && tally[i].count == MaxCount(tally) && tally[j].count == MaxCount(tally)
  }

  /** `k` is the first position holding the maximum. */
  predicate IsFirstMax(tally: seq<Entry>, k: int)
    requires tally != []
  {
    && 0 <= k < |tally|
    && tally[k].count == MaxCount(tally)
    && forall i :: 0 <= i < k ==> tally[i].count < MaxCount(tally)
  }

  /** The running variables of the scan `voteMap.forEach((count, id) => …)`. */
  datatype ScanState = ScanState(topId: Option<string>, maxVotes: int, tie: bool)

  /** `topId = null, maxVotes = -1, tie = false`. */
  const ScanStart := ScanState(None, -1, false)

  /** One iteration of the scan: a strictly greater count takes the lead and
      clears the tie flag; an equal count sets it; a smaller one changes nothing. */
  function ScanStep(s: ScanState, e: Entry): ScanState {
    if e.count > s.maxVotes then ScanState(Some(e.target), e.count, false)
    else if e.count == s.maxVotes then s.(tie := true)
    else s
  }

  /** The scan over the whole tally, in iteration order. */
  function Scan(tally: seq<Entry>): ScanState {
    if tally == [] then ScanStart else ScanStep(Scan(tally[..|tally| - 1]), tally[|tally| - 1])
  }

  /** The maximum of a tally grown by one entry. */
  lemma MaxCountExtend(p: seq<Entry>, e: Entry)
    requires p != []
    ensures MaxCount(p + [e]) == if e.count > MaxCount(p) then e.count else MaxCount(p)
  {
    assert (p + [e])[..|p|] == p;
  }

  /** A new strictly greatest entry is the first and only holder of the maximum. */
  lemma NewLeader(p: seq<Entry>, e: Entry)
    requires p != [] && e.count > MaxCount(p)
    ensures IsFirstMax(p + [e], |p|)
    ensures !SharedMax(p + [e])
  {
    var t := p + [e];
    MaxCountExtend(p, e);
    assert forall i :: 0 <= i < |p| ==> t[i].count < e.count;
  }

  /** An entry equal to the maximum leaves the first holder in place and
      makes the maximum shared. */
  lemma EqualsLeader(p: seq<Entry>, e: Entry, k: int)
    requires p != [] && e.count == MaxCount(p) && IsFirstMax(p, k)
    ensures IsFirstMax(p + [e], k)
    ensures SharedMax(p + [e])
  {
    var t := p + [e];
    MaxCountExtend(p, e);
    assert forall i :: 0 <= i < |p| ==> t[i] == p[i];
    assert t[k].count == e.count && t[|p|].count == e.count;
  }

  /** An entry below the maximum changes neither its first holder nor
      whether it is shared. */
  lemma BelowLeader(p: seq<Entry>, e: Entry, k: int)
    requires p != [] && e.count < MaxCount(p) && IsFirstMax(p, k)
    ensures IsFirstMax(p + [e], k)
    ensures SharedMax(p + [e]) <==> SharedMax(p)
  {
    var t := p + [e];
    MaxCountExtend(p, e);
    assert forall i :: 0 <= i < |p| ==> t[i] == p[i];
    BelowKeepsShared(p, e);
  }

  lemma BelowKeepsShared(p: seq<Entry>, e: Entry)
    requires p != [] && e.count < MaxCount(p)
    ensures SharedMax(p + [e]) <==> SharedMax(p)
  {
    var t := p + [e];
    var m := MaxCount(p);
    MaxCountExtend(p, e);
    if SharedMax(t) {
      var i, j :| 0 <= i < j < |t| && t[i].count == m && t[j].count == m;
      assert j < |p|;
      assert t[i] == p[i] && t[j] == p[j];
      assert 0 <= i < j < |p| && p[i].count == m && p[j].count == m;
    }
    if SharedMax(p) {
      var i, j :| 0 <= i < j < |p| && p[i].count == m && p[j].count == m;
      assert t[i] == p[i] && t[j] == p[j];
      assert 0 <= i < j < |t| && t[i].count == m && t[j].count == m;
    }
  }

  /** The scan is a correct maximum search: it ends with the greatest count,
      the first target holding it, and the tie flag set exactly when that
      greatest count is held by two entries. */
  lemma {:induction false} ScanFindsMax(tally: seq<Entry>)
    requires tally != []
    ensures Scan(tally).maxVotes == MaxCount(tally)
    ensures exists k :: IsFirstMax(tally, k) && Scan(tally).topId == Some(tally[k].target)
    ensures Scan(tally).tie <==> SharedMax(tally)
  {
    var n := |tally|;
    var e := tally[n - 1];
    if n == 1 {
      assert IsFirstMax(tally, 0);
    } else {
      var p := tally[..n - 1];
      assert tally == p + [e];
      ScanFindsMax(p);
      var k :| IsFirstMax(p, k) && Scan(p).topId == Some(p[k].target);
      MaxCountExtend(p, e);
      if e.count > MaxCount(p) {
        NewLeader(p, e);
      } else if e.count == MaxCount(p) {
        EqualsLeader(p, e, k);
        assert tally[k] == p[k];
      } else {
        BelowLeader(p, e, k);
        assert tally[k] == p[k];
      }
    }
  }

  /** The heading of the results screen. */
  datatype Heading =
    | Tie              // "EMPATE"
    | NobodyEjected    // "NADIE FUE EXPULSADO"
    | ImpostorCaught   // "IMPOSTOR ATRAPADO"
    | InnocentEjected  // "INOCENTE EXPULSADO"

  /** What the results screen decides: the heading and the `caught` flag
      that picks the celebration emoji. */
  datatype Outcome = Outcome(heading: Heading, caught: bool)

  /** The results computation: tally, scan, then `tie`, then `skipped`, then
      `caught`, else an innocent was ejected. */
  function Decide(votes: seq<Ballot>, impostorId: string): Outcome {
    Judge(Scan(Tally(votes)), impostorId)
  }

  /** The heading chosen from the scan's final variables. */
  function Judge(s: ScanState, impostorId: string): Outcome {
    var caught := !s.tie && s.topId == Some(impostorId);
    var skipped := s.topId == Some(Skip);
    var heading :=
      if s.tie then Tie
      else if skipped then NobodyEjected
      else if caught then ImpostorCaught
      else InnocentEjected;
    Outcome(heading, caught)
  }

  /** With no ballots the map is empty, `topId` stays `null`, and the screen
      reports an innocent ejected. */
  lemma NoVotesIsInnocentEjected(impostorId: string)
    ensures Decide([], impostorId) == Outcome(InnocentEjected, false)
  {
  }

  /** The first position, in iteration order, whose count is `m`, searching from `i`. */
  function FirstReaching(tally: seq<Entry>, m: nat, i: nat): (k: nat)
    requires i <= |tally|
    requires exists j :: i <= j < |tally| && tally[j].count == m
    ensures i <= k < |tally| && tally[k].count == m
    ensures forall j :: i <= j < k ==> tally[j].count != m
    decreases |tally| - i
  {
    if tally[i].count == m then i else FirstReaching(tally, m, i + 1)
  }

  /** The position of the leader: the first entry, in first-vote order,
      with the greatest count. */
  function LeaderIndex(tally: seq<Entry>): (k: nat)
    requires tally != []
    ensures IsFirstMax(tally, k)
  {
    FirstReaching(tally, MaxCount(tally), 0)
  }

  /** The target the results screen ejects when nobody ties. */
  function Leader(tally: seq<Entry>): string
    requires tally != []
  {
    tally[LeaderIndex(tally)].target
  }

  /** Only one position is the first holder of the maximum. */
  lemma FirstMaxUnique(tally: seq<Entry>, k: int, k': int)
    requires tally != [] && IsFirstMax(tally, k) && IsFirstMax(tally, k')
    ensures k == k'
  {
    assert !(k < k') && !(k' < k);
  }

  /** The scan ends on the leader, with the tie flag telling whether the
      maximum is shared. */
  lemma ScanIsLeader(tally: seq<Entry>)
    requires tally != []
    ensures Scan(tally).topId == Some(Leader(tally))
    ensures Scan(tally).tie <==> SharedMax(tally)
  {
    ScanFindsMax(tally);
    var k :| IsFirstMax(tally, k) && Scan(tally).topId == Some(tally[k].target);
    FirstMaxUnique(tally, k, LeaderIndex(tally));
  }

  /** The tally entry at position `k` counts the ballots naming its target,
      and that count is positive. */
  lemma TallyCountAt(votes: seq<Ballot>, k: int)
    requires 0 <= k < |Tally(votes)|
    ensures Tally(votes)[k].count == Count(votes, Tally(votes)[k].target) > 0
  {
    TallyCounts(votes);
    assert Keys(Tally(votes))[k] == Tally(votes)[k].target;
  }

  /** A target somebody voted for has a tally entry. */
  lemma TallyHas(votes: seq<Ballot>, t: string)
    requires Count(votes, t) > 0
    ensures t in Keys(Tally(votes))
  {
    TallyCounts(votes);
  }

  /** With at least one ballot there is at least one tally entry (so
      `DecideSpec` applies to every non-empty ballot list). */
  lemma TallyNonEmpty(votes: seq<Ballot>)
    requires votes != []
    ensures Tally(votes) != []
  {
    CountPositive(votes, 0);
    TallyHas(votes, votes[0].targetId);
  }

  /** The outcome stated without the scan, in terms of the tally's maximum:
      a shared maximum is a tie; otherwise the leader decides between
      nobody ejected, impostor caught and innocent ejected. */
  lemma {:induction false} DecideSpec(votes: seq<Ballot>, impostorId: string)
    requires Tally(votes) != []
    requires impostorId != Skip
    ensures var tally := Tally(votes);
            var o := Decide(votes, impostorId);
            && (o.heading == Tie <==> SharedMax(tally))
            && (o.heading == NobodyEjected <==> !SharedMax(tally) && Leader(tally) == Skip)
            && (o.heading == ImpostorCaught <==> !SharedMax(tally) && Leader(tally) == impostorId)
            && (o.heading == InnocentEjected <==>
                  !SharedMax(tally) && Leader(tally) != Skip && Leader(tally) != impostorId)
            && (o.caught <==> o.heading == ImpostorCaught)
  {
    var tally := Tally(votes);
    ScanIsLeader(tally);
    JudgeByLeader(Scan(tally), Leader(tally), impostorId);
  }

  /** The heading in terms of the scan's leader and tie flag. */
  lemma JudgeByLeader(s: ScanState, leader: string, impostorId: string)
    requires s.topId == Some(leader)
    requires impostorId != Skip
    ensures var o := Judge(s, impostorId);
            && (o.heading == Tie <==> s.tie)
            && (o.heading == NobodyEjected <==> !s.tie && leader == Skip)
            && (o.heading == ImpostorCaught <==> !s.tie && leader == impostorId)
            && (o.heading == InnocentEjected <==> !s.tie && leader != Skip && leader != impostorId)
            && (o.caught <==> o.heading == ImpostorCaught)
  {
  }

  /** The tally's maximum is positive: every entry counts at least one ballot. */
  lemma MaxPositive(votes: seq<Ballot>)
    requires Tally(votes) != []
    ensures MaxCount(Tally(votes)) > 0
  {
    TallyCountAt(votes, 0);
  }

  /** The tally's maximum is the greatest number of ballots any target got. */
  lemma {:induction false} MaxIsGreatestCount(votes: seq<Ballot>)
    requires Tally(votes) != []
    ensures MaxCount(Tally(votes)) > 0
    ensures forall t :: Count(votes, t) <= MaxCount(Tally(votes))
  {
    var tally := Tally(votes);
    forall t
      ensures Count(votes, t) <= MaxCount(tally)
    {
      if Count(votes, t) > 0 {
        TallyHas(votes, t);
        TallyCountAt(votes, Position(Keys(tally), t));
      }
    }
    MaxPositive(votes);
  }

  /** Two different positions holding the maximum make it shared. */
  lemma SharedAt(tally: seq<Entry>, i: int, j: int)
    requires tally != []
    requires 0 <= i < |tally| && 0 <= j < |tally| && i != j
    requires tally[i].count == MaxCount(tally) && tally[j].count == MaxCount(tally)
    ensures SharedMax(tally)
  {
    if i < j {
      assert 0 <= i < j < |tally| && tally[i].count == MaxCount(tally) && tally[j].count == MaxCount(tally);
    } else {
      assert 0 <= j < i < |tally| && tally[j].count == MaxCount(tally) && tally[i].count == MaxCount(tally);
    }
  }

  /** Two different targets with the greatest number of ballots sit at two
      different positions of the tally. */
  lemma TwoTargetsShareMax(votes: seq<Ballot>, t1: string, t2: string)
    requires Tally(votes) != []
    requires t1 != t2
    requires Count(votes, t1) == MaxCount(Tally(votes)) && Count(votes, t2) == MaxCount(Tally(votes))
    ensures SharedMax(Tally(votes))
  {
    var tally := Tally(votes);
    MaxPositive(votes);
    TallyHas(votes, t1);
    TallyHas(votes, t2);
    var i, j := Position(Keys(tally), t1), Position(Keys(tally), t2);
    TallyCountAt(votes, i);
    TallyCountAt(votes, j);
    SharedAt(tally, i, j);
  }

  /** The scan reports a tie exactly when two different targets both got the
      greatest number of ballots. */
  lemma {:induction false} TieMeansTwoTargets(votes: seq<Ballot>)
    requires Tally(votes) != []
    ensures Scan(Tally(votes)).tie <==>
              exists t1, t2 :: t1 != t2 && Count(votes, t1) == MaxCount(Tally(votes)) && Count(votes, t2) == MaxCount(Tally(votes))
  {
    var tally := Tally(votes);
    var m := MaxCount(tally);
    ScanIsLeader(tally);
    if SharedMax(tally) {
      var i, j :| 0 <= i < j < |tally| && tally[i].count == m && tally[j].count == m;
      TallyCountAt(votes, i);
      TallyCountAt(votes, j);
      assert tally[i].target != tally[j].target;
    }
    if exists t1, t2 :: t1 != t2 && Count(votes, t1) == m && Count(votes, t2) == m {
      var t1, t2 :| t1 != t2 && Count(votes, t1) == m && Count(votes, t2) == m;
      TwoTargetsShareMax(votes, t1, t2);
    }
  }

  /** A ballot makes its target's count positive. */
  lemma {:induction false} CountPositive(votes: seq<Ballot>, i: int)
    requires 0 <= i < |votes|
    ensures Count(votes, votes[i].targetId) > 0
    decreases |votes|
  {
    if i < |votes| - 1 {
      var p := votes[..|votes| - 1];
      assert p[i] == votes[i];
      CountPositive(p, i);
    }
  }

  /** The leader's entry counts the greatest number of ballots. */
  lemma {:induction false} LeaderCount(votes: seq<Ballot>)
    requires Tally(votes) != []
    ensures Count(votes, Leader(Tally(votes))) == MaxCount(Tally(votes))
  {
    TallyCountAt(votes, LeaderIndex(Tally(votes)));
  }

  /** Not tied means a unique winner: the scan's `topId` is the leader, and
      every other target received strictly fewer ballots. */
  lemma UniqueWinner(votes: seq<Ballot>)
    requires Tally(votes) != []
    requires !Scan(Tally(votes)).tie
    ensures Scan(Tally(votes)).topId == Some(Leader(Tally(votes)))
    ensures forall t :: t != Leader(Tally(votes)) ==> Count(votes, t) < Count(votes, Leader(Tally(votes)))
  {
    var tally := Tally(votes);
    var l, m := Leader(tally), MaxCount(tally);
    ScanIsLeader(tally);
    LeaderCount(votes);
    MaxIsGreatestCount(votes);
    TieMeansTwoTargets(votes);
    forall t | t != l
      ensures Count(votes, t) < Count(votes, l)
    {
      assert Count(votes, t) <= m;
      assert Count(votes, t) != m;
    }
  }

  /** The scan of one more entry is one more scan step. */
  lemma ScanSnoc(p: seq<Entry>, e: Entry)
    ensures Scan(p + [e]) == ScanStep(Scan(p), e)
  {
    assert (p + [e])[..|p|] == p;
  }

  /** The scan of a three-entry tally, step by step. */
  lemma Scan3(x: Entry, y: Entry, z: Entry)
    ensures Scan([x, y, z]) == ScanStep(ScanStep(ScanStep(ScanStart, x), y), z)
  {
    ScanSnoc([], x);
    assert [] + [x] == [x];
    ScanSnoc([x], y);
    assert [x] + [y] == [x, y];
    ScanSnoc([x, y], z);
    assert [x, y] + [z] == [x, y, z];
  }

  /** Worked outcomes of the heading rule on tallies: a tie at the top, a
      majority for skip, a clear innocent winner, and an early tie overtaken
      by a later, greater count, which clears the tie flag. */
  lemma JudgeExamples()
    ensures Judge(Scan([Entry("a", 2), Entry("b", 2), Entry(Skip, 1)]), "a") == Outcome(Tie, false)
    ensures Judge(Scan([Entry(Skip, 3), Entry("a", 1), Entry("b", 1)]), "a") == Outcome(NobodyEjected, false)
    ensures Judge(Scan([Entry("a", 3), Entry("b", 1), Entry("c", 1)]), "b") == Outcome(InnocentEjected, false)
    ensures Judge(Scan([Entry("a", 1), Entry("b", 1), Entry("c", 2)]), "c") == Outcome(ImpostorCaught, true)
  {
    Scan3(Entry("a", 2), Entry("b", 2), Entry(Skip, 1));
    Scan3(Entry(Skip, 3), Entry("a", 1), Entry("b", 1));
    Scan3(Entry("a", 3), Entry("b", 1), Entry("c", 1));
    Scan3(Entry("a", 1), Entry("b", 1), Entry("c", 2));
  }
}

=== FILE: words.dfy ===
/** The secret word of a round: the fixed word bank, the random pick from it,
    and the manual word with its fallbacks. */
module Words {

  /** `Word`: a category label and the word itself. */
  datatype Word = Word(category: string, word: string)

  /** `WORD_BANK`, in source order. */
  const WordBank: seq<Word> := [
    Word("Comida", "Hamburguesa"),
    Word("Comida", "Sushi"),
    Word("Comida", "Pizza"),
    Word("Comida", "Tacos"),
    Word("Lugar", "Hospital"),
    Word("Lugar", "Cementerio"),
    Word("Lugar", "Escuela"),
    Word("Lugar", "Cine"),
    Word("Animal", "Jirafa"),
    Word("Animal", "Pingüino"),
    Word("Animal", "Tiburón"),
    Word("Animal", "Elefante"),
    Word("Objeto", "Paraguas"),
    Word("Objeto", "Espejo"),
    Word("Profesión", "Astronauta"),
    Word("Profesión", "Bombero"),
    Word("Profesión", "Payaso"),
    Word("Profesión", "Cirujano"),
    Word("Transporte", "Submarino"),
    Word("Transporte", "Avión"),
    Word("Cine", "Titanic"),
    Word("Cine", "Harry Potter")
  ]

  /** Fallback category of a manual word. */
  const DefaultCategory: string := "General"
  /** Fallback manual word. */
  const DefaultWord: string := "Secreto"

  /** `pickRandomWord()`: the game draws `k` uniformly below the bank's size. */
  function PickWord(k: nat): (w: Word)
    requires k < |WordBank|
    ensures w in WordBank
  {
    WordBank[k]
  }

  /** JavaScript's `s || fallback` on strings: only the empty string is falsy. */
  function OrElse(s: string, fallback: string): (r: string)
    ensures s != [] ==> r == s
    ensures s == [] ==> r == fallback
  {
    if s == [] then fallback else s
  }

  /** The secret chosen at round start: the manual word when that mode is on,
      otherwise the bank entry at the drawn index. */
  function ChooseSecret(useCustom: bool, customCategory: string, customWord: string, k: nat): (w: Word)
    requires k < |WordBank|
    ensures !useCustom ==> w in WordBank
    ensures useCustom ==> w == Word(OrElse(customCategory, DefaultCategory), OrElse(customWord, DefaultWord))
  {
    if useCustom then Word(OrElse(customCategory, DefaultCategory), OrElse(customWord, DefaultWord))
    else PickWord(k)
  }

  /** The bank has 22 entries, and every bank entry can be drawn. */
  lemma PickWordCoversBank(w: Word)
    requires w in WordBank
    ensures |WordBank| == 22
    ensures exists k :: 0 <= k < |WordBank| && PickWord(k) == w
  {
    var k :| 0 <= k < |WordBank| && WordBank[k] == w;
    assert PickWord(k) == w;
  }

  /** A manual secret never has an empty word or category: blank fields fall
      back, anything else (even whitespace) is kept as typed. */
  lemma CustomSecretNeverEmpty(useCustom: bool, customCategory: string, customWord: string, k: nat)
    requires k < |WordBank|
    ensures var w := ChooseSecret(useCustom, customCategory, customWord, k);
            w.category != [] && w.word != []
  {
    if !useCustom {
      var w := PickWord(k);
      assert w.category != [] && w.word != [];
    }
  }
}
